=== FILE: README.md ===
# Shopping-cart assistant core, modelled in Dafny

This project models the core of a chat shopping assistant for a health and nutrition
shop. A language model picks one of seven store operations from a fixed menu, or
answers directly. The operations search the product listing and manage the user's
shopping cart in a PostgreSQL table.

The project covers four parts:

- **Hybrid search.** Each query is resolved by reciprocal-rank fusion (RRF). A semantic
  ranking and a keyword ranking are each cut to 20 rows. A product's fused score is
  the sum over the rankings that hold it of 1/(60 + rank). The fused rows are ordered
  by descending score and cut to 5 (search, remove, update) or 1 (add).
- **Cart transitions.** `show_cart`, `add_product_to_cart`, `remove_product_from_cart`,
  `update_product_quantity`, `pay_cart` and `check_products_status` become pure
  functions. Each maps a store (a sequence of cart lines) to a new store and the
  message returned to the language model.
- **The page's buttons.** The "Add" and "Buy Now" buttons in `utils/db.py`, plus the
  connection settings.
- **The router.** The operation menu, the binding of call arguments with the Python
  defaults, and `reply_prompt`'s dispatch. The reply is a second-pass request to
  stream, the fallback text for an unknown name, or the language model's own text.

The language model and the embedding service are oracles. The language model's
first-pass decision and the two rankings for each query are inputs. A failure of the embedding
call is an input too (`Retrieval.EmbeddingFailed`). The cart operations catch it and
report `"Error: ..."`. The search does not catch it, so it propagates
(`Attempt.Raised`).

Files, one module each: `wrappers.dfy` (Option, Attempt), `seqs.dfy` (Distinct,
Prefix, Filter, ConcatMap), `text.dfy` (integer and two-decimal rendering), `catalog.dfy`
(listing rows, price filter), `cart_store.dfy` (cart lines and row-level
transitions), `fusion.dfy` (RRF), `db_llm.dfy`, `db.dfy`, `llm.dfy`.

Some behaviours of the code are modelled exactly as written:

- In `update_product_quantity`, `result[1]` is read before the code checks whether a
  row was found. A query that matches nothing in the user's cart therefore raises, and
  the handler returns `"Error: 'NoneType' object is not subscriptable"`. The
  `"The product is not in the cart."` branch is unreachable, and
  `UpdateProductQuantity` proves that this message is never returned.
- `add_product_to_cart` on an empty search indexes `None` in the same way and returns
  the same error text.
- `pay_cart` goes ahead only when some in-cart line has a positive quantity. Once it
  does, every in-cart line of the user becomes paid, including lines whose quantity
  is zero or negative.
- Requested quantities are never validated: adding a negative quantity lowers the
  line.
- The menu leaves the add's `quantity` optional, but the handler gives it no default.
  A call without it raises a `TypeError` (`AddWithoutQuantityRaises`).

## Model

| member | source | states |
|---|---|---|
| Fusion.RankOf | utils/db_llm.py:44 | The rank of an id is its 1-based first position in the ranking, and it is absent exactly when the ranking does not hold the id. |
| Fusion.RankOfDistinct | utils/db_llm.py:44 | In a ranking without repeats, the element at 0-based position i has rank i + 1. |
| Fusion.JoinedIds | utils/db_llm.py:58 | The full outer join yields each id held by either ranking exactly once. |
| Fusion.Candidates | utils/db_llm.py:57-62 | The unordered fused rows are exactly the ids of either ranking, each paired with its RRF score, without repeated ids. |
| Fusion.SortByScore | utils/db_llm.py:63 | Sorting gives a non-increasing score order that is a permutation of its input and keeps distinctness. |
| Fusion.InsertByScore | utils/db_llm.py:63 | Inserting a row into a score-ordered sequence keeps it ordered and adds exactly that row to its multiset. |
| Fusion.TopRows | utils/db_llm.py:63-64 | Cutting the sorted rows to a limit keeps an ordered, distinct subset of the candidates; any candidate left out implies the cut is full and that candidate scores no higher than every kept row; the result is empty only for limit 0 or no candidates. |
| Fusion.Fuse | utils/db_llm.py:42-64 | The fused top-N rows: at most N, ordered by score, distinct ids; every row is a candidate of the 20-truncated rankings carrying its fused score; a candidate missing from the result scores no higher than every kept row and the result is full; empty iff N is 0 or both rankings are empty. |
| Fusion.ScoreRankedInBoth | utils/db_llm.py:57-62 | A product at positions i and j (within the top 20) of the two rankings scores 1/(60+i+1) + 1/(60+j+1). |
| Fusion.ScoreRankedSemanticOnly | utils/db_llm.py:59-60 | A product only in the semantic top 20, at position i, scores exactly 1/(60+i+1): the missing side adds 0.0. |
| Fusion.ScoreRankedKeywordOnly | utils/db_llm.py:59-60 | A product only in the keyword top 20, at position j, scores exactly 1/(60+j+1). |
| Catalog.Lookup | utils/db_llm.py:95 | The join on `p.id` finds a listing row with that id, or none exists. |
| CartStore.FindCartLine | utils/db_llm.py:151-157 | Finds the first in-cart line of the user for the product, or reports that there is none. |
| CartStore.AddOrIncrement | utils/db_llm.py:159-176 | The cart quantity becomes old + requested. With an existing line, only that line changes (under the one-line-per-key invariant). Otherwise exactly one new CART line with the requested quantity is appended. The invariant is preserved. |
| CartStore.SetCartQuantity | utils/db_llm.py:290-294 | Every in-cart line of the user for the product gets the new quantity and every other line is unchanged; the invariant is preserved. |
| CartStore.DeleteCartLines | utils/db_llm.py:227-231 | Exactly the user's in-cart lines for the product disappear, and every other line keeps all its copies. The store shrinks when there was such a line. The invariant is preserved. |
| CartStore.DeleteKeepsUnique | utils/db_llm.py:227-231 | Deleting lines cannot break the one-line-per-key invariant. |
| CartStore.MarkPaid | utils/db_llm.py:318-322 | Every in-cart line of the user becomes PAID, dated today, arriving today + 3; no in-cart line of the user remains; other lines are unchanged. |
| Text.NatToStringRoundTrip | utils/db_llm.py:107 | Reading back the decimal digits of a natural number gives the number. |
| Text.IntToString | utils/db_llm.py:107 | An integer renders as `str` does: an optional minus sign, then digits that read back as its magnitude, with no leading zero except for 0 itself. |
| Text.CentsText | utils/db_llm.py:85-108 | A price in cents renders in one canonical form: a minus sign exactly when negative, then a whole part that starts with 0 only when it is 0, a single ".", and exactly two fraction digits. |
| Text.CentsTextRoundTrip | utils/db_llm.py:85 | A two-decimal price rendering reads back as the exact amount of cents. |
| DbLlm.ErrorMessage | utils/db_llm.py:178-179 | A caught exception is reported as "Error: " followed by exactly the exception's text. |
| DbLlm.Restrict | utils/db_llm.py:38-46 | Without a filter the ranking is unchanged. With one it keeps exactly the listed products whose price passes the filter, and any two kept products stay in the same relative rank order. |
| DbLlm.SearchTop | utils/db_llm.py:42-64 | At most 5 rows with distinct ids, ordered by score, all passing the price filter. Each row is a candidate of the filtered rankings and carries its fused score over those filtered orders. A candidate left out implies 5 rows, each scoring at least as much as it. Empty iff both filtered rankings are empty. |
| DbLlm.MatchedProducts | utils/db_llm.py:71-77 | The re-fetch returns exactly the listing rows whose id is among the fused ids. |
| DbLlm.FormatProduct | utils/db_llm.py:85 | A product block starts with "## ". |
| DbLlm.ProductBlockFields | utils/db_llm.py:85 | A product block shows "## " and the name, then the price with two decimals, which reads back as the exact price, then the description and, last, the link. |
| DbLlm.FormatProducts | utils/db_llm.py:82-85 | The search text holds the block of every matched product. It is exactly those blocks, one after another, with nothing before, between or after them. |
| DbLlm.SearchProductsLlm | utils/db_llm.py:34-87 | Raises exactly when the embedding call fails, with its reason. Otherwise returns exactly "No matched products" iff no listing row has one of the fused ids, and the returned text holds the formatted block of every listing row that has one. Any other text returned is the blocks of a sequence of listing rows that all have a fused id, and nothing else. |
| DbLlm.SearchWithoutRankingsFindsNothing | utils/db_llm.py:80-81 | With both rankings empty, the search returns "No matched products". |
| DbLlm.JoinProducts | utils/db_llm.py:92-97 | The join yields, for every wanted store line whose product is listed, that line with its listing row, and nothing else. |
| DbLlm.CartRowsText | utils/db_llm.py:104-107 | The cart listing holds the row of every joined line. It is exactly those rows, one after another, with nothing between them. |
| DbLlm.CartRowText | utils/db_llm.py:107 | A cart line starts with "Product: ". |
| DbLlm.CartRowFields | utils/db_llm.py:92-107 | A cart line starts with the name cut to 50 characters, then the unit price, which reads back exactly. |
| DbLlm.CartRowLayout | utils/db_llm.py:107 | A cart line holds, in order, the header with the cut name, the price text, the quantity between its labels, and the total text before the closing line break. |
| DbLlm.CartRowTotal | utils/db_llm.py:92-107 | A cart line ends with the line total and a line break. The total reads back exactly as the unit price times the quantity. |
| DbLlm.RowsTotalIsCartTotal | utils/db_llm.py:102-108 | The running total of the listing loop equals the sum of price times quantity over the user's listed in-cart lines. |
| DbLlm.ShowCart | utils/db_llm.py:90-112 | Returns "Your shopping cart is empty." iff the user has no listed in-cart line. Otherwise the text holds the formatted row of every listed in-cart line of the user and ends with "\nTotal Price: " and the cart's value. Before that total it is exactly the rows of a sequence of the user's listed in-cart lines, each joined with its own listing row, and nothing else. |
| DbLlm.ResolveTop | utils/db_llm.py:122-148 | The add's `LIMIT 1` search finds nothing iff both rankings are empty; otherwise it finds a candidate whose fused score is maximal. |
| DbLlm.AddResolved | utils/db_llm.py:150-176 | With an in-cart line: its quantity becomes old + requested, no row is added, and the message is "Done. Already add your product more.". Without one: one CART line is appended and the message is "Done. The product is in the shopping cart.". The invariant is preserved. |
| DbLlm.AddProductToCart | utils/db_llm.py:115-179 | The store changes only when the search found a product. An embedding failure and an empty search leave the store unchanged with an "Error: ..." message. Otherwise the add acts on the top-scored product. The invariant is preserved. |
| DbLlm.AddTwiceAccumulates | utils/db_llm.py:159-168 | Two adds of the same product leave one in-cart line holding old + a + b and no extra row. |
| DbLlm.PickInCart | utils/db_llm.py:214-219 | Picks the best-scored fused row whose product is in the user's cart, or reports that none of the rows is. |
| DbLlm.CartTarget | utils/db_llm.py:189-223 | Among the 5 fused rows, the best-scored product that the user has in the cart, or none. |
| DbLlm.RemoveProductFromCart | utils/db_llm.py:182-238 | "Done" iff a target was found, and then exactly the user's in-cart lines of the target are deleted, with every other line keeping all its copies. With no matching in-cart product: "The product isn't in the cart." and an unchanged store. PAID lines and other users' lines keep every copy, no line is created, and an embedding failure changes nothing. |
| DbLlm.UpdateResolved | utils/db_llm.py:285-296 | Requested == current gives "Please validate your quantity. They are same." and an unchanged store. Otherwise "Done": each of the user's in-cart lines for the product changes in its quantity only, to the requested one, and every other line is untouched. |
| DbLlm.UpdateProductQuantity | utils/db_llm.py:241-301 | Never returns "The product is not in the cart.". The answer is "Done" or the same-quantity message exactly when a target was found, and the target is then updated as UpdateResolved states. A target not in the cart gives the NoneType error with an unchanged store. PAID lines are untouched and the invariant is preserved. |
| DbLlm.PayCart | utils/db_llm.py:303-329 | "There are no products in the shopping cart." iff no in-cart line has a positive quantity, and then nothing changes. Otherwise "Done": every in-cart line of the user becomes paid today with arrival today + 3, and every other line is untouched. |
| DbLlm.PayTwiceIsNoOp | utils/db_llm.py:310-326 | Paying again right after a payment finds nothing to pay and changes nothing. |
| DbLlm.StatusRowsText | utils/db_llm.py:343-346 | The status report holds the row of every joined line. It is exactly those rows, one after another, with nothing between them. |
| DbLlm.StatusRowText | utils/db_llm.py:346 | A status line starts with "Product: ". |
| DbLlm.StatusRowFields | utils/db_llm.py:335-346 | A status line shows the full name, the quantity as `str` renders it, the status and, last, the arrival day. |
| DbLlm.CheckProductsStatus | utils/db_llm.py:331-351 | Returns "There are no products." iff the user has no line with a listed product. Otherwise the report starts with "Product: " and holds the status row of every listed line of the user, in the cart or paid. It is exactly the rows of a sequence of the user's listed lines, each joined with its own listing row, and nothing else. |
| DbLlm.CheckAfterPay | utils/db_llm.py:318-351 | After a payment on day d, the status report shows each line that was in the cart with its quantity, status PAID and arrival day d + 3. |
| Db.SslMode | utils/db.py:13-15 | Encryption is disabled iff the host is "localhost", and required otherwise. |
| Db.IndexOf | utils/db.py:28 | Finds the first occurrence of a separator in the URL, or reports that there is none. |
| Db.SplitAtSeparator | utils/db.py:28 | A separator absent from the left part splits the string back into its two parts. |
| Db.GetDbUrl | utils/db.py:27-28 | The URL starts with `postgresql://` and parses back into user, password, host and database name when the user and host contain no ':' and the password no '@'. |
| Db.DbUrlRoundTrip | utils/db.py:27-28 | The URL built from four settings parses back into them when the user and host contain no ':' and the password no '@'. |
| Db.AddProductCart | utils/db.py:30-53 | The "Add" button adds one: an existing in-cart line gains 1 and nothing else changes; otherwise a CART line of quantity 1 is appended. The invariant is preserved. |
| Db.AddButtonIsChatAddOfOne | utils/db.py:30-53 | The page's "Add" button changes the store exactly as the chat's add of a quantity of one does. |
| Db.BuyProductCart | utils/db.py:55-81 | "Done" iff some in-cart line has a positive quantity, and then every in-cart line of the user is paid. Otherwise "There are no products in the shopping cart." and nothing changes. Other users' lines and PAID lines are untouched. |
| Llm.OperationNamed | utils/llm.py:166-258 | A called name selects the operation whose menu name it is; no operation is selected exactly when no operation has that name. |
| Llm.CustomFunctions | utils/llm.py:13-146 | The menu has exactly 7 entries with distinct names. Each name selects an operation, and each operation has its entry. |
| Llm.ObjectParametersHaveFields | utils/llm.py:16-35 | The price filter is the only object-typed parameter and the only one with fields: the search's comparison operator, a string, and value, a number. |
| Llm.RequiredAreDeclared | utils/llm.py:13-146 | Every required parameter of an entry is one it declares, and every entry except the search declares `user_id`. |
| Llm.RequiredParameters | utils/llm.py:39-115 | The search requires only `search_query`. The add requires `user_id` and `search_query` but declares `quantity` without requiring it. The update requires all three. |
| Llm.MandatoryVersusRequired | utils/llm.py:56-77 | The only handler parameter without a default that the menu does not mark as required is the add's `quantity`. |
| Llm.Missing | utils/llm.py:168-246 | The missing arguments are exactly the handler's parameters without a default that the call leaves out. |
| Llm.CompleteMeansNothingMissing | utils/llm.py:168-246 | A call can be bound iff no parameter without a default is missing. |
| Llm.BindCall | utils/llm.py:162-246 | Binding raises iff a parameter without a default is missing, and the reason names the missing parameters. Otherwise the bound call is of the selected operation, carries every supplied argument, and uses user 1 and update quantity 1 as defaults. |
| Llm.AddWithoutQuantityRaises | utils/llm.py:192-194 | An add call with a user and a query but no quantity raises "add_product_to_cart() missing 1 required positional argument: 'quantity'". |
| Llm.Execute | utils/llm.py:166-246 | Each bound call runs its operation's handler. Only the search can raise, and only when the embedding fails. Search, show and check leave the store unchanged. |
| Llm.FirstPassRequest | utils/llm.py:149-154 | The first pass sends the shop persona as the system message, then the conversation unchanged, with the menu. |
| Llm.ReplyPrompt | utils/llm.py:148-261 | No call: the language model's text, unstreamed, store unchanged. Unknown name: the fallback text, unstreamed, store unchanged. Known name: a streamed second pass whose system message is that operation's and whose user message is prompt + "\n\nSources:\n\n" + the operation's result. Binding and search failures propagate. |
| Llm.ReadOnlyCallsKeepStore | utils/llm.py:166-191 | A search, show or check call leaves the store as it was. |

## Left out

- The OpenAI chat-completion and embedding calls and the streamed responses. They are
  external services, so the first-pass decision and the rankings are inputs.
  `ReplyPrompt` returns the second-pass request instead of the stream.
- The vector distance `<=>` and the full-text `ts_rank_cd` relevance. Both are
  computed inside the database, so each ranking is a given order of distinct ids.
- Ties under `RANK()`. Rank is modelled as 1-based position, so tied rows do not
  share a rank. The order among rows of equal fused score is left to `SortByScore`.
- Decimal rounding of the fused score. PostgreSQL computes `1.0 / (60 + rank)` as a
  `numeric` and rounds each quotient to a fixed number of decimal digits. Here the
  scores are exact `real` values, so two scores that the rounding makes equal stay
  distinct.
- The price column's type. Prices are whole cents rendered with two decimals, which
  assumes a two-decimal numeric column; the schema is not part of this project.
- `Restrict`, `SearchProductsLlm`: the price filter is applied as the predicate it is
  meant to be. The SQL is built by string concatenation with no space before `AND`,
  and the operator text is passed through unchecked. Neither is modelled: the
  operator is one of the five the menu offers, and an empty filter object counts as
  no filter.
- The row order of the `id = ANY(...)` re-fetch and of the cart queries. The table's
  order is not specified, so sequence order stands in for it. The text contracts say
  which rows appear and that nothing else does, not in which order.
- Positional argument passing through `*list(function_args.values())`. The values are
  bound to the handler's parameters in the order of the JSON keys. This project binds them
  by name instead. Any call whose keys are not, in order, a prefix of the handler's
  parameters is bound differently. It can differ in whether it raises at all, not only
  in the error wording. For example, an update with keys `user_id` and `quantity` binds
  the quantity to `search_query` and the default 1 to `quantity`, and does not raise.
  This project raises for it.
- JSON decoding of the arguments, argument type errors, and unexpected extra
  arguments.
- `BindCall`: whether binding raises, and the `TypeError` text, follow binding by
  name. They agree with the source only for calls whose keys are, in order, a prefix
  of the handler's parameters.
- Database failures beyond the embedding failure: connection errors, SQL errors, and
  the `"Error: ..."` messages they produce. The search's uncaught failures are also
  left out.
- The table's key constraints. The one-in-cart-line-per-(user, product) property is
  an invariant that the operations are proved to preserve, not a constraint the
  store enforces.
- 32-bit integer columns. Quantities and ids are unbounded integers, so overflow of
  `quantity + requested` is not modelled.
- `CheckProductsStatus`: how a date prints is the parameter `renderDay`. The
  current day is the parameter `today`.
- The module-level environment loading and connection setup in `utils/db.py` and
  `utils/db_llm.py`, and `conn.autocommit`. `GetDbUrl` and `SslMode` keep the values
  they compute.
- The page itself (`app.py`, `utils/image.py`): session history, rendering and
  buttons beyond the two store calls `utils/db.py` provides.
- Concurrency between users or sessions. Each operation is one atomic transition.

=== FILE: cart_store.dfy ===
/** The `shopping_cart` table as an immutable sequence of lines, with the row-level
    transitions the cart operations are built from. Sequence order stands in for the
    order in which the database happens to return rows. */
module CartStore {
  import opened Wrappers
  import opened Seqs
  import opened Catalog

  type UserId = int

  /** The two lifecycle states of a cart line. */
  datatype Status = Cart | Paid

  /** How a status is stored and printed. */
  function StatusText(s: Status): string {
    match s
    case Cart => "CART"
    case Paid => "PAID"
  }

  /** One row of `shopping_cart`. Dates are day numbers; a missing date is SQL NULL. */
  datatype CartLine = CartLine(
    user: UserId,
    product: ProductId,
    status: Status,
    quantity: int,
    statusDate: Option<int>,
    arrival: Option<int>)

  type Store = seq<CartLine>

  /** Days between payment and the estimated arrival (`CURRENT_DATE + 3`). */
  const ArrivalDays: int := 3

  predicate InCartOf(l: CartLine, u: UserId, p: ProductId) {
    l.status == Cart && l.user == u && l.product == p
  }

  predicate InCartOfUser(l: CartLine, u: UserId) {
    l.status == Cart && l.user == u
  }

  /** Two lines that are both in a cart, for the same user and product. */
  predicate SameCartKey(a: CartLine, b: CartLine) {
    a.status == Cart && b.status == Cart && a.user == b.user && a.product == b.product
  }

  /** The store invariant: at most one in-cart line per (user, product). */
  predicate UniqueCartLines(s: Store) {
    forall i, j | 0 <= i < |s| && 0 <= j < |s| && i != j :: !SameCartKey(s[i], s[j])
  }

  function FindFrom(s: Store, u: UserId, p: ProductId, from: nat): (r: Option<nat>)
    requires from <= |s|
    ensures r.Some? ==> from <= r.value < |s| && InCartOf(s[r.value], u, p)
                        && forall k | from <= k < r.value :: !InCartOf(s[k], u, p)
    ensures r.None? ==> forall k | from <= k < |s| :: !InCartOf(s[k], u, p)
    decreases |s| - from
  {
    if from == |s| then None
    else if InCartOf(s[from], u, p) then Some(from)
    else FindFrom(s, u, p, from + 1)
  }

  /** The position of the first in-cart line for (u, p): the row
      `SELECT ... WHERE user_id = u AND product_id = p AND status = 'CART'` fetches. */
  function FindCartLine(s: Store, u: UserId, p: ProductId): (r: Option<nat>)
    ensures r.Some? ==> r.value < |s| && InCartOf(s[r.value], u, p)
                        && forall k | 0 <= k < r.value :: !InCartOf(s[k], u, p)
    ensures r.None? ==> forall k | 0 <= k < |s| :: !InCartOf(s[k], u, p)
  {
    FindFrom(s, u, p, 0)
  }

  /** The quantity of the in-cart line for (u, p), if there is one. */
  function CartQuantity(s: Store, u: UserId, p: ProductId): Option<int> {
    match FindCartLine(s, u, p)
    case None => None
    case Some(i) => Some(s[i].quantity)
  }

  /** `UPDATE ... SET quantity = q WHERE user_id = u AND product_id = p AND status = 'CART'`. */
  function SetCartQuantity(s: Store, u: UserId, p: ProductId, q: int): (r: Store)
    ensures |r| == |s|
    ensures forall k | 0 <= k < |s| ::
              r[k] == if InCartOf(s[k], u, p) then s[k].(quantity := q) else s[k]
    ensures FindCartLine(r, u, p) == FindCartLine(s, u, p)
    ensures FindCartLine(s, u, p).Some? ==> CartQuantity(r, u, p) == Some(q)
    ensures UniqueCartLines(s) ==> UniqueCartLines(r)
  {
    var r := seq(|s|, k requires 0 <= k < |s| => if InCartOf(s[k], u, p) then s[k].(quantity := q) else s[k]);
    assert forall k | 0 <= k < |s| :: InCartOf(r[k], u, p) == InCartOf(s[k], u, p);
    assert forall i, j | 0 <= i < |s| && 0 <= j < |s| :: SameCartKey(r[i], r[j]) == SameCartKey(s[i], s[j]);
    SameFirstLine(s, r, u, p);
    r
  }

  /** Two stores with the same in-cart lines for (u, p) at the same positions
      have the same first such line. */
  lemma SameFirstLine(s: Store, r: Store, u: UserId, p: ProductId)
    requires |r| == |s|
    requires forall k | 0 <= k < |s| :: InCartOf(r[k], u, p) == InCartOf(s[k], u, p)
    ensures FindCartLine(r, u, p) == FindCartLine(s, u, p)
  {
    var a, b := FindCartLine(r, u, p), FindCartLine(s, u, p);
    if a.Some? && b.Some? {
      assert !(a.value < b.value) && !(b.value < a.value);
    }
  }

  /** Increment the in-cart line for (u, p) by `q`, or insert one with quantity `q`:
      the add-or-increment both "add" paths perform. */
  function AddOrIncrement(s: Store, u: UserId, p: ProductId, q: int): (r: Store)
    ensures CartQuantity(r, u, p) == Some(CartQuantity(s, u, p).GetOr(0) + q)
    ensures FindCartLine(s, u, p).None? ==> r == s + [CartLine(u, p, Cart, q, None, None)]
    ensures FindCartLine(s, u, p).Some? ==>
              var i := FindCartLine(s, u, p).value;
              |r| == |s| && r[i] == s[i].(quantity := s[i].quantity + q)
              && (UniqueCartLines(s) ==> forall k | 0 <= k < |s| && k != i :: r[k] == s[k])
    ensures UniqueCartLines(s) ==> UniqueCartLines(r)
  {
    match FindCartLine(s, u, p)
    case Some(i) =>
      IncrementTouchesOneLine(s, u, p, i, s[i].quantity + q);
      SetCartQuantity(s, u, p, s[i].quantity + q)
    case None =>
      AppendNewLine(s, u, p, q);
      s + [CartLine(u, p, Cart, q, None, None)]
  }

  lemma IncrementTouchesOneLine(s: Store, u: UserId, p: ProductId, i: nat, v: int)
    requires FindCartLine(s, u, p) == Some(i)
    ensures UniqueCartLines(s) ==>
              forall k | 0 <= k < |s| && k != i :: SetCartQuantity(s, u, p, v)[k] == s[k]
  {
    if UniqueCartLines(s) {
      forall k | 0 <= k < |s| && k != i ensures SetCartQuantity(s, u, p, v)[k] == s[k] {
        assert !SameCartKey(s[i], s[k]);
      }
    }
  }

  lemma AppendNewLine(s: Store, u: UserId, p: ProductId, q: int)
    requires FindCartLine(s, u, p).None?
    ensures FindCartLine(s + [CartLine(u, p, Cart, q, None, None)], u, p) == Some(|s|)
    ensures UniqueCartLines(s) ==> UniqueCartLines(s + [CartLine(u, p, Cart, q, None, None)])
  {
    var r := s + [CartLine(u, p, Cart, q, None, None)];
    assert forall k | 0 <= k < |s| :: r[k] == s[k];
    var f := FindCartLine(r, u, p);
    assert InCartOf(r[|s|], u, p);
    assert f.Some? && !(f.value < |s|);
    if UniqueCartLines(s) {
      forall i, j | 0 <= i < |r| && 0 <= j < |r| && i != j ensures !SameCartKey(r[i], r[j]) {
        if i == |s| {
          assert !InCartOf(s[j], u, p);
        } else if j == |s| {
          assert !InCartOf(s[i], u, p);
        }
      }
    }
  }

  /** The rows a delete for (u, p) keeps. */
  function KeepUnlessInCartOf(u: UserId, p: ProductId): CartLine -> bool {
    l => !InCartOf(l, u, p)
  }

  /** `DELETE FROM shopping_cart WHERE user_id = u AND product_id = p AND status = 'CART'`. */
  function DeleteCartLines(s: Store, u: UserId, p: ProductId): (r: Store)
    ensures forall l :: l in r <==> l in s && !InCartOf(l, u, p)
    ensures FindCartLine(s, u, p).Some? ==> |r| < |s|
    ensures UniqueCartLines(s) ==> UniqueCartLines(r)
    ensures forall l :: multiset(r)[l] == if InCartOf(l, u, p) then 0 else multiset(s)[l]
  {
    DeleteKeepsUnique(s, u, p);
    DeleteShrinks(s, u, p);
    FilterCounts(s, KeepUnlessInCartOf(u, p));
    Filter(s, KeepUnlessInCartOf(u, p))
  }

  lemma DeleteShrinks(s: Store, u: UserId, p: ProductId)
    ensures FindCartLine(s, u, p).Some? ==> |Filter(s, KeepUnlessInCartOf(u, p))| < |s|
  {
    if FindCartLine(s, u, p).Some? {
      var l := s[FindCartLine(s, u, p).value];
      assert l in s && !KeepUnlessInCartOf(u, p)(l);
    }
  }

  lemma {:induction false} DeleteKeepsUnique(s: Store, u: UserId, p: ProductId)
    ensures UniqueCartLines(s) ==> UniqueCartLines(Filter(s, KeepUnlessInCartOf(u, p)))
    decreases |s|
  {
    if s != [] && UniqueCartLines(s) {
      var t := s[1..];
      assert UniqueCartLines(t) by {
        forall i, j | 0 <= i < |t| && 0 <= j < |t| && i != j ensures !SameCartKey(t[i], t[j]) {
          assert t[i] == s[i + 1] && t[j] == s[j + 1];
        }
      }
      DeleteKeepsUnique(t, u, p);
      var rest := Filter(t, KeepUnlessInCartOf(u, p));
      assert s == [s[0]] + t;
      if !InCartOf(s[0], u, p) {
        assert [s[0]] + rest == Filter(s, KeepUnlessInCartOf(u, p));
        forall y | y in rest ensures !SameCartKey(s[0], y) {
          var k :| 0 <= k < |t| && t[k] == y;
          assert s[k + 1] == y;
        }
        ConsKeepsUnique(s[0], rest);
      }
    }
  }

  /** A line whose key no other line shares keeps the store invariant when put in front. */
  lemma ConsKeepsUnique(x: CartLine, rest: Store)
    requires UniqueCartLines(rest)
    requires forall y | y in rest :: !SameCartKey(x, y)
    ensures UniqueCartLines([x] + rest)
  {
    var r := [x] + rest;
    forall i, j | 0 <= i < |r| && 0 <= j < |r| && i != j ensures !SameCartKey(r[i], r[j]) {
      if i == 0 || j == 0 {
        var o := if i == 0 then j else i;
        assert r[o] == rest[o - 1] && rest[o - 1] in rest;
      } else {
        assert r[i] == rest[i - 1] && r[j] == rest[j - 1];
      }
    }
  }

  /** Whether the user has an in-cart line with a positive quantity
      (the guard `quantity > 0 AND status = 'CART'` of checkout). */
  predicate HasPayable(s: Store, u: UserId) {
    exists k | 0 <= k < |s| :: InCartOfUser(s[k], u) && s[k].quantity > 0
  }

  /** A line after checkout on day `today`. */
  function PaidLine(l: CartLine, today: int): CartLine {
    l.(status := Paid, statusDate := Some(today), arrival := Some(today + ArrivalDays))
  }

  /** `UPDATE ... SET status = 'PAID', status_date = today, estimated_arrival_date = today + 3
       WHERE user_id = u AND status = 'CART'`. */
  function MarkPaid(s: Store, u: UserId, today: int): (r: Store)
    ensures |r| == |s|
    ensures forall k | 0 <= k < |s| :: r[k] == if InCartOfUser(s[k], u) then PaidLine(s[k], today) else s[k]
    ensures forall k | 0 <= k < |r| :: !InCartOfUser(r[k], u)
    ensures UniqueCartLines(s) ==> UniqueCartLines(r)
  {
    seq(|s|, k requires 0 <= k < |s| => if InCartOfUser(s[k], u) then PaidLine(s[k], today) else s[k])
  }
}

=== FILE: catalog.dfy ===
/** The product listing the retriever searches: rows of `product_listing`. */
module Catalog {
  import opened Wrappers

  type ProductId = int

  /** One listing row. The price is a whole number of cents (`discount_price_dollar`
      with two decimals). The stored embedding is not modelled: the retriever receives
      rankings instead. */
  datatype Product = Product(id: ProductId, name: string, priceCents: int, description: string, link: string)

  /** The listing in table order; `id` is its primary key. */
  type ProductListing = seq<Product>

  /** The row a join on `id` finds. */
  function Lookup(listing: ProductListing, id: ProductId): (r: Option<Product>)
    ensures r.Some? ==> r.value in listing && r.value.id == id
    ensures r.None? ==> forall p :: p in listing ==> p.id != id
  {
    if listing == [] then None
    else if listing[0].id == id then Some(listing[0])
    else Lookup(listing[1..], id)
  }

  /** The comparison operators the operation menu offers for a price filter. */
  datatype Comparison = Greater | Less | AtLeast | AtMost | Equal

  /** `price_filter = {comparison_operator, value}`, with the value in dollars. */
  datatype PriceFilter = PriceFilter(op: Comparison, value: real)

  function Dollars(cents: int): real {
    cents as real / 100.0
  }

  /** Whether a price in cents passes the filter `discount_price_dollar <op> value`. */
  predicate Admits(f: PriceFilter, priceCents: int) {
    var price := Dollars(priceCents);
    match f.op
    case Greater => price > f.value
    case Less => price < f.value
    case AtLeast => price >= f.value
    case AtMost => price <= f.value
    case Equal => price == f.value
  }
}

=== FILE: db.dfy ===
/** The direct store access the page uses (`utils/db.py`): the connection settings, the
    "Add" button's add-one and the "Buy Now" button's checkout. */
module Db {
  import opened Wrappers
  import opened Catalog
  import opened CartStore
  import opened Seqs
  import DbLlm

  /** The four connection settings read from the environment. */
  datatype DbConfig = DbConfig(user: string, password: string, host: string, name: string)

  const Scheme: string := "postgresql://"
  const PortPart: string := ":5432/"

  /** The `sslmode` of the connection: encryption is off only for a local server. */
  function SslMode(host: string): (m: string)
    ensures m == "disable" <==> host == "localhost"
    ensures m == "disable" || m == "require"
  {
    if host != "localhost" then "require" else "disable"
  }

  /** `get_db_url`: the connection URL the page's SQL connection is opened with. It
      carries the settings faithfully as long as they do not contain the separators the
      URL uses (the source does not escape them). */
  function GetDbUrl(c: DbConfig): (url: string)
    ensures Scheme <= url
    ensures ':' !in c.user && '@' !in c.password && ':' !in c.host ==> ParseDbUrl(url) == Some(c)
  {
    DbUrlRoundTrip(c.user, c.password, c.host, c.name);
    Scheme + c.user + ":" + c.password + "@" + c.host + PortPart + c.name
  }

  /** The first position of `c` in `s`. */
  function IndexOf(s: string, c: char): (r: Option<int>)
    ensures r.None? ==> c !in s
    ensures r.Some? ==> 0 <= r.value < |s| && s[r.value] == c && c !in s[..r.value]
  {
    if s == [] then None
    else if s[0] == c then Some(0)
    else
      assert s == [s[0]] + s[1..];
      match IndexOf(s[1..], c)
      case None => None
      case Some(i) =>
        assert s[..i + 1] == [s[0]] + s[1..][..i];
        Some(i + 1)
  }

  /** Splitting at the first occurrence of a separator the left part does not contain. */
  lemma SplitAtSeparator(a: string, c: char, b: string)
    requires c !in a && b != [] && b[0] == c
    ensures IndexOf(a + b, c) == Some(|a|)
    ensures (a + b)[..|a|] == a && (a + b)[|a| + 1..] == b[1..]
  {
    var s := a + b;
    assert s[|a|] == c;
    var i := IndexOf(s, c).value;
    assert forall k | 0 <= k < |a| :: s[k] == a[k] && a[k] in a;
    assert forall k | 0 <= k < i :: s[..i][k] == s[k];
    assert s[..|a|] == a;
  }

  /** How a URL of this shape is read back into its settings: the user ends at the
      first ':', the password at the next '@', the host at the next ':'. */
  function ParseDbUrl(url: string): Option<DbConfig> {
    if !(Scheme <= url) then None
    else
      match SplitUser(url[|Scheme|..])
      case None => None
      case Some(c) => Some(c)
  }

  function SplitUser(r1: string): Option<DbConfig> {
    match IndexOf(r1, ':')
    case None => None
    case Some(i) =>
      match SplitPassword(r1[i + 1..])
      case None => None
      case Some(c) => Some(c.(user := r1[..i]))
  }

  function SplitPassword(r2: string): Option<DbConfig> {
    match IndexOf(r2, '@')
    case None => None
    case Some(j) =>
      match SplitHost(r2[j + 1..])
      case None => None
      case Some(c) => Some(c.(password := r2[..j]))
  }

  function SplitHost(r3: string): Option<DbConfig> {
    match IndexOf(r3, ':')
    case None => None
    case Some(k) =>
      var r4 := r3[k..];
      if PortPart <= r4 then Some(DbConfig("", "", r3[..k], r4[|PortPart|..])) else None
  }

  /** How the URL's parts are read back by `ParseDbUrl`. */
  lemma DbUrlRoundTrip(user: string, password: string, host: string, name: string)
    ensures ':' !in user && '@' !in password && ':' !in host ==>
              ParseDbUrl(Scheme + user + ":" + password + "@" + host + PortPart + name)
                == Some(DbConfig(user, password, host, name))
  {
    if ':' !in user && '@' !in password && ':' !in host {
      var afterPassword := host + (PortPart + name);
      var afterUser := password + ("@" + afterPassword);
      var rest := user + (":" + afterUser);
      UrlGrouping(user, password, host, name);
      assert (Scheme + rest)[|Scheme|..] == rest;
      HostReadBack(host, name);
      PasswordReadBack(password, host, name);
      UserReadBack(user, password, host, name);
    }
  }

  /** The URL's concatenation, regrouped from the right. */
  lemma UrlGrouping(user: string, password: string, host: string, name: string)
    ensures Scheme + user + ":" + password + "@" + host + PortPart + name
              == Scheme + (user + (":" + (password + ("@" + (host + (PortPart + name))))))
  {
    var port := PortPart + name;
    var afterPassword := host + port;
    var afterUser := password + ("@" + afterPassword);
    Regroup(Scheme + user + ":" + password + "@" + host, PortPart, name);
    Regroup(Scheme + user + ":" + password + "@", host, port);
    Regroup(Scheme + user + ":" + password, "@", afterPassword);
    Regroup(Scheme + user + ":", password, "@" + afterPassword);
    Regroup(Scheme + user, ":", afterUser);
    Regroup(Scheme, user, ":" + afterUser);
  }

  /** The host ends at the ':' before the port, and the database name follows the port. */
  lemma HostReadBack(host: string, name: string)
    requires ':' !in host
    ensures SplitHost(host + (PortPart + name)) == Some(DbConfig("", "", host, name))
  {
    var port := PortPart + name;
    SplitAtSeparator(host, ':', port);
    assert (host + port)[|host|..] == port;
    assert port[|PortPart|..] == name;
  }

  /** The password ends at the first '@'. */
  lemma PasswordReadBack(password: string, host: string, name: string)
    requires '@' !in password && ':' !in host
    ensures SplitPassword(password + ("@" + (host + (PortPart + name)))) == Some(DbConfig("", password, host, name))
  {
    HostReadBack(host, name);
    SplitAtSeparator(password, '@', "@" + (host + (PortPart + name)));
  }

  /** The user ends at the first ':'. */
  lemma UserReadBack(user: string, password: string, host: string, name: string)
    requires ':' !in user && '@' !in password && ':' !in host
    ensures SplitUser(user + (":" + (password + ("@" + (host + (PortPart + name))))))
              == Some(DbConfig(user, password, host, name))
  {
    PasswordReadBack(password, host, name);
    SplitAtSeparator(user, ':', ":" + (password + ("@" + (host + (PortPart + name)))));
  }

  /** `add_product_cart`, the page's "Add" button: one more of the product in the
      user's cart, or a new line of one. */
  function AddProductCart(store: Store, p: ProductId, u: UserId): (r: Store)
    ensures FindCartLine(store, u, p).Some? ==>
              var i := FindCartLine(store, u, p).value;
              && |r| == |store|
              && r[i] == store[i].(quantity := store[i].quantity + 1)
              && (UniqueCartLines(store) ==> forall k | 0 <= k < |store| && k != i :: r[k] == store[k])
    ensures FindCartLine(store, u, p).None? ==> r == store + [CartLine(u, p, Cart, 1, None, None)]
    ensures UniqueCartLines(store) ==> UniqueCartLines(r)
  {
    AddOrIncrement(store, u, p, 1)
  }

  /** The button's add is the chat's add with a requested quantity of one. */
  lemma AddButtonIsChatAddOfOne(store: Store, p: ProductId, u: UserId)
    ensures AddProductCart(store, p, u) == DbLlm.AddResolved(store, u, p, 1).store
  {
  }

  /** `buy_product_cart`, the page's "Buy Now" button: the same checkout as the chat's
      `pay_cart`. */
  function BuyProductCart(store: Store, u: UserId, today: int): (r: DbLlm.Outcome)
    ensures r.message == DbLlm.Done <==> HasPayable(store, u)
    ensures r.message == DbLlm.NothingToPay <==> !HasPayable(store, u)
    ensures !HasPayable(store, u) ==> r.store == store
    ensures HasPayable(store, u) ==>
              && |r.store| == |store|
              && (forall k | 0 <= k < |store| && InCartOfUser(store[k], u) :: r.store[k] == PaidLine(store[k], today))
              && (forall k | 0 <= k < |r.store| :: !InCartOfUser(r.store[k], u))
    ensures forall k | 0 <= k < |store| && !InCartOfUser(store[k], u) :: k < |r.store| && r.store[k] == store[k]
  {
    DbLlm.PayCart(store, u, today)
  }
}

=== FILE: db_llm.dfy ===
/** The catalog and cart operations the assistant calls (`utils/db_llm.py`), each a
    pure transition from a store to a new store and the string handed back to the
    language model. */
module DbLlm {
  import opened Wrappers
  import opened Seqs
  import opened Text
  import opened Catalog
  import opened CartStore
  import opened Fusion

  /** What the hybrid search receives for one query: the semantic and keyword relevance
      orders the database computes from the query's embedding and text, or the failure
      of the embedding call that precedes them. */
  datatype Retrieval =
    | Ranked(semantic: seq<ProductId>, keyword: seq<ProductId>)
    | EmbeddingFailed(reason: string)

  /** Each relevance order lists a product at most once (`id` is the listing's key). */
  predicate WellFormed(r: Retrieval) {
    r.Ranked? ==> Distinct(r.semantic) && Distinct(r.keyword)
  }

  /** A cart operation's result: the store after it, and the message it returns. */
  datatype Outcome = Outcome(store: Store, message: string)

  const NoMatchedProducts: string := "No matched products"
  const CartIsEmpty: string := "Your shopping cart is empty."
  const AddedMore: string := "Done. Already add your product more."
  const AddedNew: string := "Done. The product is in the shopping cart."
  const Done: string := "Done"
  const NotInCart: string := "The product isn't in the cart."
  const SameQuantity: string := "Please validate your quantity. They are same."
  /** The message of a branch of `update_product_quantity` that no input reaches. */
  const ProductNotInCart: string := "The product is not in the cart."
  const NothingToPay: string := "There are no products in the shopping cart."
  const NoProducts: string := "There are no products."
  /** `str()` of the TypeError raised by indexing the None that `fetchone()` returns
      when the query found no row. */
  const NoneNotSubscriptable: string := "'NoneType' object is not subscriptable"
  /** Rendered product names in the cart listing are cut to this many characters. */
  const CartNameWidth: nat := 50

  /** The message an operation's exception handler returns. */
  function ErrorMessage(reason: string): (m: string)
    ensures "Error: " <= m
    ensures m[|"Error: "|..] == reason
  {
    "Error: " + reason
  }

  /** An error report is never one of the update's other answers. */
  lemma ErrorIsNoAnswer(reason: string)
    ensures ErrorMessage(reason) != Done && ErrorMessage(reason) != SameQuantity
    ensures ErrorMessage(reason) != ProductNotInCart
  {
    var m := ErrorMessage(reason);
    assert m[1] == 'r' != SameQuantity[1];
    assert m[0] != ProductNotInCart[0] && m[0] != Done[0];
  }

  // ---------------------------------------------------------------- search

  function PriceAdmits(listing: ProductListing, f: PriceFilter): ProductId -> bool {
    id => match Lookup(listing, id)
          case Some(p) => Admits(f, p.priceCents)
          case None => false
  }

  /** A relevance order restricted by the optional price filter (the `WHERE` both
      rankings share); ranks are then counted inside the restricted order. */
  function Restrict(listing: ProductListing, order: seq<ProductId>, filter: Option<PriceFilter>): (r: seq<ProductId>)
    ensures Distinct(order) ==> Distinct(r)
    ensures forall x | x in r :: x in order
    ensures filter.None? ==> r == order
    ensures filter.Some? ==> forall x :: x in r <==>
              x in order && Lookup(listing, x).Some? && Admits(filter.value, Lookup(listing, x).value.priceCents)
    ensures Distinct(order) ==> forall x, y | x in r && y in r ::
              RankOf(r, x).value < RankOf(r, y).value <==> RankOf(order, x).value < RankOf(order, y).value
  {
    match filter
    case None => order
    case Some(f) =>
      FilterKeepsRankOrders(order, PriceAdmits(listing, f));
      Filter(order, PriceAdmits(listing, f))
  }

  /** The five fused rows of a catalog search: the fusion of the two rankings after the
      price filter, so both the candidates and their ranks come from the filtered orders. */
  function SearchTop(listing: ProductListing, semantic: seq<ProductId>, keyword: seq<ProductId>,
                     filter: Option<PriceFilter>): (r: seq<Scored>)
    requires Distinct(semantic) && Distinct(keyword)
    ensures |r| <= SearchLimit
    ensures SortedByScore(r)
    ensures filter.Some? ==> forall c | c in r ::
              Lookup(listing, c.id).Some? && Admits(filter.value, Lookup(listing, c.id).value.priceCents)
    ensures r == [] <==> Restrict(listing, semantic, filter) == [] && Restrict(listing, keyword, filter) == []
    ensures Distinct(Ids(r))
    ensures var s, k := Restrict(listing, semantic, filter), Restrict(listing, keyword, filter);
            forall c | c in r :: IsCandidate(s, k, c.id) && c.score == FusedScore(s, k, c.id)
    ensures var s, k := Restrict(listing, semantic, filter), Restrict(listing, keyword, filter);
            forall x | IsCandidate(s, k, x) && x !in Ids(r) ::
              |r| == SearchLimit && forall c | c in r :: FusedScore(s, k, x) <= c.score
  {
    var s, k := Restrict(listing, semantic, filter), Restrict(listing, keyword, filter);
    var r := Fuse(s, k, SearchLimit);
    assert forall c | c in r :: c.id in s || c.id in k;
    r
  }

  function HasIdIn(ids: seq<ProductId>): Product -> bool {
    (p: Product) => p.id in ids
  }

  /** `SELECT ... FROM product_listing WHERE id = ANY(ids)`: the listing rows with one of
      the ids, in the order the table yields them (not the fused order). */
  function MatchedProducts(listing: ProductListing, ids: seq<ProductId>): (r: ProductListing)
    ensures forall p :: p in r <==> p in listing && p.id in ids
  {
    Filter(listing, HasIdIn(ids))
  }

  const PriceLabel: string := "\n\nprice: $"
  const DescriptionLabel: string := "\n\ndescription: "
  const UrlLabel: string := "\n\nURL: "

  /** One matched product as the search reports it. */
  function FormatProduct(p: Product): (s: string)
    ensures "## " <= s
  {
    ProductBlock(p.name, CentsText(p.priceCents), p.description, p.link)
  }

  /** The layout of a product block around its four fields. */
  function ProductBlock(name: string, price: string, description: string, link: string): string {
    "## " + name + PriceLabel + price + DescriptionLabel + description + UrlLabel + link
  }

  /** A product block shows a heading with the name, then the price with two decimals
      (it reads back as the exact price), the description and, last, the link. */
  lemma ProductBlockFields(p: Product)
    ensures var s := FormatProduct(p);
            && "## " + p.name + PriceLabel <= s
            && (var k, n := |"## " + p.name + PriceLabel|, |CentsText(p.priceCents)|;
                k + n <= |s| && ReadCents(s[k..k + n]) == Some(p.priceCents))
            && Infix(DescriptionLabel + p.description + UrlLabel, s)
            && (var tail := UrlLabel + p.link; |tail| <= |s| && s[|s| - |tail|..] == tail)
  {
    ProductBlockLayout(p.name, CentsText(p.priceCents), p.description, p.link);
    CentsTextReadAt(FormatProduct(p), |"## " + p.name + PriceLabel|, p.priceCents);
  }

  /** Where the heading, the price text, the description and the link sit in a block. */
  lemma ProductBlockLayout(name: string, price: string, description: string, link: string)
    ensures var s, head := ProductBlock(name, price, description, link), "## " + name + PriceLabel;
            && head <= s
            && |head| + |price| <= |s| && s[|head|..|head| + |price|] == price
            && Infix(DescriptionLabel + description + UrlLabel, s)
            && (var tail := UrlLabel + link; |tail| <= |s| && s[|s| - |tail|..] == tail)
  {
    BlockFields("## " + name + PriceLabel, price, DescriptionLabel, description, UrlLabel, link, "");
  }

  /** Where the parts of a formatted block sit in the joined text: a head, a field, a
      label, a field, a label, a last field and an ending. */
  lemma BlockFields(head: string, f1: string, l1: string, f2: string, l2: string, f3: string, end: string)
    ensures var s := head + f1 + l1 + f2 + l2 + f3 + end;
            var k1, k2 := |head|, |head| + |f1| + |l1|;
            var w := l2 + f3 + end;
            && head <= s
            && k1 + |f1| <= |s| && s[k1..k1 + |f1|] == f1
            && k2 + |f2| <= |s| && s[k2..k2 + |f2|] == f2
            && Infix(l1 + f2 + l2, s)
            && |w| <= |s| && s[|s| - |w|..] == w
            && s[|s| - |end| - |f3|..|s| - |end|] == f3
            && (end == [] ==> s == head + f1 + l1 + f2 + l2 + f3)
  {
    var s := head + f1 + l1 + f2 + l2 + f3 + end;
    assert s[|head + f1|..][..|l1 + f2 + l2|] == l1 + f2 + l2;
  }

  /** The matched products, one block after another, with nothing between the blocks. */
  function FormatProducts(ps: seq<Product>): (s: string)
    ensures ps != [] ==> "## " <= s
    ensures forall p | p in ps :: Infix(FormatProduct(p), s)
    ensures forall i | 0 <= i < |ps| ::
              s == ConcatMap(ps[..i], FormatProduct) + FormatProduct(ps[i]) + ConcatMap(ps[i + 1..], FormatProduct)
  {
    ConcatMapContains(ps, FormatProduct);
    ConcatMapAround(ps, FormatProduct);
    assert ps != [] ==> ps[..0] == [];
    ConcatMap(ps, FormatProduct)
  }

  /** `search_products_llm`: fuse the two rankings, fetch the matching listing rows and
      format them; an embedding failure is not caught here and propagates. */
  function SearchProductsLlm(listing: ProductListing, retrieval: Retrieval, filter: Option<PriceFilter>): (r: Attempt<string>)
    requires WellFormed(retrieval)
    ensures r.Raised? <==> retrieval.EmbeddingFailed?
    ensures r.Raised? ==> r.reason == retrieval.reason
    ensures retrieval.Ranked? ==>
              (r == Returned(NoMatchedProducts) <==>
               forall p | p in listing :: p.id !in Ids(SearchTop(listing, retrieval.semantic, retrieval.keyword, filter)))
    ensures retrieval.Ranked? ==>
              forall p | p in listing && p.id in Ids(SearchTop(listing, retrieval.semantic, retrieval.keyword, filter)) ::
                r.Returned? && Infix(FormatProduct(p), r.value)
    ensures retrieval.Ranked? && r != Returned(NoMatchedProducts) ==>
              && r.Returned?
              && exists ps: seq<Product> ::
                   && (forall p | p in ps :: p in listing && p.id in Ids(SearchTop(listing, retrieval.semantic, retrieval.keyword, filter)))
                   && r.value == FormatProducts(ps)
  {
    match retrieval
    case EmbeddingFailed(e) => Raised(e)
    case Ranked(semantic, keyword) =>
      var found := MatchedProducts(listing, Ids(SearchTop(listing, semantic, keyword, filter)));
      if found == [] then
        Returned(NoMatchedProducts)
      else
        assert found[0] in found;
        assert FormatProducts(found)[0] == '#';
        Returned(FormatProducts(found))
  }

  /** With both rankings empty the search reports exactly "No matched products". */
  lemma SearchWithoutRankingsFindsNothing(listing: ProductListing, filter: Option<PriceFilter>)
    ensures SearchProductsLlm(listing, Ranked([], []), filter) == Returned(NoMatchedProducts)
  {
    assert SearchTop(listing, [], [], filter) == [];
  }

  // ---------------------------------------------------------------- joins

  /** A cart line joined with its listing row. */
  datatype JoinedLine = JoinedLine(line: CartLine, product: Product)

  /** `shopping_cart sc JOIN product_listing p ON sc.product_id = p.id WHERE <wanted>`,
      in store order. */
  function JoinProducts(store: Store, listing: ProductListing, wanted: CartLine -> bool): (r: seq<JoinedLine>)
    ensures |r| <= |store|
    ensures JoinedFrom(r, store, listing, wanted)
    ensures forall l | l in store && wanted(l) && Lookup(listing, l.product).Some? ::
              JoinedLine(l, Lookup(listing, l.product).value) in r
  {
    if store == [] then []
    else
      assert store == [store[0]] + store[1..];
      var rest := JoinProducts(store[1..], listing, wanted);
      var l := store[0];
      if wanted(l) && Lookup(listing, l.product).Some? then [JoinedLine(l, Lookup(listing, l.product).value)] + rest
      else rest
  }

  /** Every row joins a line of `store` that `wanted` selects with that line's listed product. */
  predicate JoinedFrom(rows: seq<JoinedLine>, store: Store, listing: ProductListing, wanted: CartLine -> bool) {
    forall j | j in rows :: j.line in store && wanted(j.line) && Lookup(listing, j.line.product) == Some(j.product)
  }

  function OwnCartLines(u: UserId): CartLine -> bool {
    l => InCartOfUser(l, u)
  }

  function OwnLines(u: UserId): CartLine -> bool {
    (l: CartLine) => l.user == u
  }

  // ---------------------------------------------------------------- show_cart

  function LineTotal(j: JoinedLine): int {
    j.product.priceCents * j.line.quantity
  }

  /** One line of the cart listing. */
  function CartRowText(j: JoinedLine): (s: string)
    ensures "Product: " <= s
  {
    var name, price, quantity, total :=
      Prefix(j.product.name, CartNameWidth), CentsText(j.product.priceCents), IntToString(j.line.quantity),
      CentsText(LineTotal(j));
    CartRowParts(name, price, quantity, total);
    CartRow(name, price, quantity, total)
  }

  function CartRow(name: string, price: string, quantity: string, total: string): string {
    "Product: " + name + ", Price: " + price + ", Quantity: " + quantity + ", Total: " + total + "\n"
  }

  /** A cart line starts with the name cut to 50 characters and the unit price, which
      reads back exactly. */
  lemma CartRowFields(j: JoinedLine)
    ensures var name := Prefix(j.product.name, CartNameWidth);
            |name| <= CartNameWidth && name <= j.product.name && "Product: " + name + ", Price: " <= CartRowText(j)
    ensures var s, k, n := CartRowText(j), |"Product: " + Prefix(j.product.name, CartNameWidth) + ", Price: "|,
                           |CentsText(j.product.priceCents)|;
            k + n <= |s| && ReadCents(s[k..k + n]) == Some(j.product.priceCents)
  {
    CartRowLayout(j);
    var s, price := CartRowText(j), CentsText(j.product.priceCents);
    var k := |"Product: " + Prefix(j.product.name, CartNameWidth) + ", Price: "|;
    assert s[k..k + |price|] == price;
    CentsTextRoundTrip(j.product.priceCents);
  }

  /** A cart line ends with the line total and a line break; the total reads back as the
      unit price times the quantity. */
  lemma CartRowTotal(j: JoinedLine)
    ensures var s, n := CartRowText(j), |CentsText(LineTotal(j))|;
            n + 1 <= |s| && s[|s| - 1] == '\n'
            && ReadCents(s[|s| - 1 - n..|s| - 1]) == Some(j.product.priceCents * j.line.quantity)
  {
    CartRowLayout(j);
    var s, total := CartRowText(j), CentsText(LineTotal(j));
    assert s[|s| - 1 - |total|..|s| - 1] == total;
    CentsTextRoundTrip(LineTotal(j));
  }

  /** Where the price, the quantity and the total sit in a cart line. */
  lemma CartRowLayout(j: JoinedLine)
    ensures var s, name := CartRowText(j), Prefix(j.product.name, CartNameWidth);
            var price, total := CentsText(j.product.priceCents), CentsText(LineTotal(j));
            var k := |"Product: " + name + ", Price: "|;
            && "Product: " + name + ", Price: " <= s
            && k + |price| <= |s| && s[k..k + |price|] == price
            && Infix(", Quantity: " + IntToString(j.line.quantity) + ", Total: ", s)
            && |total| + 1 <= |s| && s[|s| - 1] == '\n' && s[|s| - 1 - |total|..|s| - 1] == total
  {
    CartRowParts(Prefix(j.product.name, CartNameWidth), CentsText(j.product.priceCents), IntToString(j.line.quantity),
                 CentsText(LineTotal(j)));
  }

  lemma CartRowParts(name: string, price: string, quantity: string, total: string)
    ensures var s, k := CartRow(name, price, quantity, total), |"Product: " + name + ", Price: "|;
            && "Product: " + name + ", Price: " <= s
            && k + |price| <= |s| && s[k..k + |price|] == price
            && Infix(", Quantity: " + quantity + ", Total: ", s)
            && |total| + 1 <= |s| && s[|s| - 1] == '\n' && s[|s| - 1 - |total|..|s| - 1] == total
  {
    BlockFields("Product: " + name + ", Price: ", price, ", Quantity: ", quantity, ", Total: ", total, "\n");
  }

  /** The cart lines, one row after another, with nothing between the rows. */
  function CartRowsText(rows: seq<JoinedLine>): (s: string)
    ensures rows != [] ==> "Product: " <= s
    ensures forall j | j in rows :: Infix(CartRowText(j), s)
    ensures forall i | 0 <= i < |rows| ::
              s == ConcatMap(rows[..i], CartRowText) + CartRowText(rows[i]) + ConcatMap(rows[i + 1..], CartRowText)
  {
    ConcatMapContains(rows, CartRowText);
    ConcatMapAround(rows, CartRowText);
    assert rows != [] ==> rows[..0] == [];
    ConcatMap(rows, CartRowText)
  }

  /** The running `total_all_prices` of the listing loop. */
  function RowsTotal(rows: seq<JoinedLine>): int {
    if rows == [] then 0 else LineTotal(rows[0]) + RowsTotal(rows[1..])
  }

  /** The value of the user's cart read straight off the store: price times quantity,
      summed over the user's in-cart lines whose product is listed. */
  function CartTotal(store: Store, listing: ProductListing, u: UserId): int {
    if store == [] then 0
    else
      var l := store[0];
      var here := match Lookup(listing, l.product)
                  case Some(p) => if InCartOfUser(l, u) then p.priceCents * l.quantity else 0
                  case None => 0;
      here + CartTotal(store[1..], listing, u)
  }

  /** The total `show_cart` prints is the cart's value. */
  lemma {:induction false} RowsTotalIsCartTotal(store: Store, listing: ProductListing, u: UserId)
    ensures RowsTotal(JoinProducts(store, listing, OwnCartLines(u))) == CartTotal(store, listing, u)
    decreases |store|
  {
    if store != [] {
      RowsTotalIsCartTotal(store[1..], listing, u);
    }
  }

  /** `show_cart`: one line per in-cart item of the user, then the total; or the
      empty-cart message when the user has no listed in-cart line. */
  function ShowCart(store: Store, listing: ProductListing, u: UserId): (r: string)
    ensures r == CartIsEmpty <==>
              forall l | l in store :: !(InCartOfUser(l, u) && Lookup(listing, l.product).Some?)
    ensures r != CartIsEmpty ==>
              var tail := "\nTotal Price: " + CentsText(CartTotal(store, listing, u));
              |tail| <= |r| && r[|r| - |tail|..] == tail
    ensures forall l | l in store && InCartOfUser(l, u) && Lookup(listing, l.product).Some? ::
              Infix(CartRowText(JoinedLine(l, Lookup(listing, l.product).value)), r)
    ensures r != CartIsEmpty ==>
              var tail := "\nTotal Price: " + CentsText(CartTotal(store, listing, u));
              exists rows | JoinedFrom(rows, store, listing, OwnCartLines(u)) :: r == CartRowsText(rows) + tail
  {
    var rows := JoinProducts(store, listing, OwnCartLines(u));
    if rows == [] then
      CartIsEmpty
    else
      ShowCartText(store, listing, u);
      CartRowsText(rows) + ("\nTotal Price: " + CentsText(RowsTotal(rows)))
  }

  /** The listing `show_cart` prints for a non-empty cart: the rows, then the total. */
  lemma ShowCartText(store: Store, listing: ProductListing, u: UserId)
    requires JoinProducts(store, listing, OwnCartLines(u)) != []
    ensures var rows := JoinProducts(store, listing, OwnCartLines(u));
            var tail := "\nTotal Price: " + CentsText(CartTotal(store, listing, u));
            var text := CartRowsText(rows) + ("\nTotal Price: " + CentsText(RowsTotal(rows)));
            && text == CartRowsText(rows) + tail
            && text[0] == 'P'
            && |tail| <= |text| && text[|text| - |tail|..] == tail
            && forall l | l in store && InCartOfUser(l, u) && Lookup(listing, l.product).Some? ::
                 Infix(CartRowText(JoinedLine(l, Lookup(listing, l.product).value)), text)
  {
    var rows := JoinProducts(store, listing, OwnCartLines(u));
    RowsTotalIsCartTotal(store, listing, u);
    var body := CartRowsText(rows);
    var tail := "\nTotal Price: " + CentsText(RowsTotal(rows));
    assert rows[0] in rows;
    assert (body + tail)[0] == 'P';
    assert (body + tail)[|body + tail| - |tail|..] == tail;
    InfixOfLonger(body, tail);
  }

  // ---------------------------------------------------------------- add_product_to_cart

  /** The product the add operation resolves a query to: the id of the single top fused
      row, absent only when both rankings are empty. */
  function ResolveTop(semantic: seq<ProductId>, keyword: seq<ProductId>): (r: Option<ProductId>)
    requires Distinct(semantic) && Distinct(keyword)
    ensures r.None? <==> semantic == [] && keyword == []
    ensures r.Some? ==> IsCandidate(semantic, keyword, r.value)
                        && forall x | IsCandidate(semantic, keyword, x) ::
                             FusedScore(semantic, keyword, x) <= FusedScore(semantic, keyword, r.value)
  {
    var top := Fuse(semantic, keyword, ResolveLimit);
    TopOfOne(semantic, keyword);
    if top == [] then None else Some(top[0].id)
  }

  /** The single row of a `LIMIT 1` fusion is a candidate no other candidate outscores. */
  lemma TopOfOne(semantic: seq<ProductId>, keyword: seq<ProductId>)
    requires Distinct(semantic) && Distinct(keyword)
    ensures var top := Fuse(semantic, keyword, ResolveLimit);
            && (top == [] <==> semantic == [] && keyword == [])
            && (top != [] ==>
                  && IsCandidate(semantic, keyword, top[0].id)
                  && forall x | IsCandidate(semantic, keyword, x) ::
                       FusedScore(semantic, keyword, x) <= FusedScore(semantic, keyword, top[0].id))
  {
    var top := Fuse(semantic, keyword, ResolveLimit);
    if top != [] {
      assert top[0] in top;
      assert Ids(top) == [top[0].id];
      forall x | IsCandidate(semantic, keyword, x)
        ensures FusedScore(semantic, keyword, x) <= FusedScore(semantic, keyword, top[0].id)
      {
        if x == top[0].id {
        } else {
          assert x !in Ids(top);
        }
      }
    }
  }

  /** The add step once the product is known: increment the user's in-cart line for it,
      or insert a new one. */
  function AddResolved(store: Store, u: UserId, p: ProductId, q: int): (r: Outcome)
    ensures CartQuantity(r.store, u, p) == Some(CartQuantity(store, u, p).GetOr(0) + q)
    ensures FindCartLine(store, u, p).Some? ==>
              var i := FindCartLine(store, u, p).value;
              && r.message == AddedMore
              && |r.store| == |store|
              && r.store[i] == store[i].(quantity := store[i].quantity + q)
              && (UniqueCartLines(store) ==> forall k | 0 <= k < |store| && k != i :: r.store[k] == store[k])
    ensures FindCartLine(store, u, p).None? ==>
              r.message == AddedNew && r.store == store + [CartLine(u, p, Cart, q, None, None)]
    ensures UniqueCartLines(store) ==> UniqueCartLines(r.store)
  {
    var message := if FindCartLine(store, u, p).Some? then AddedMore else AddedNew;
    Outcome(AddOrIncrement(store, u, p, q), message)
  }

  /** `add_product_to_cart`. An empty search makes `result[0]` raise, which the handler
      turns into an error message; the requested quantity is taken as given. */
  function AddProductToCart(store: Store, retrieval: Retrieval, u: UserId, q: int): (r: Outcome)
    requires WellFormed(retrieval)
    ensures r.store != store ==> retrieval.Ranked? && (retrieval.semantic != [] || retrieval.keyword != [])
    ensures retrieval == Ranked([], []) ==> r == Outcome(store, ErrorMessage(NoneNotSubscriptable))
    ensures retrieval.Ranked? && (retrieval.semantic != [] || retrieval.keyword != []) ==>
              r == AddResolved(store, u, ResolveTop(retrieval.semantic, retrieval.keyword).value, q)
    ensures UniqueCartLines(store) ==> UniqueCartLines(r.store)
    ensures retrieval.EmbeddingFailed? ==> r == Outcome(store, ErrorMessage(retrieval.reason))
  {
    match retrieval
    case EmbeddingFailed(e) => Outcome(store, ErrorMessage(e))
    case Ranked(semantic, keyword) =>
      match ResolveTop(semantic, keyword)
      case None => Outcome(store, ErrorMessage(NoneNotSubscriptable))
      case Some(p) => AddResolved(store, u, p, q)
  }

  /** Adding the same product twice leaves one in-cart line holding the sum of both
      requests (on top of what was already there). */
  lemma {:induction false} AddTwiceAccumulates(store: Store, u: UserId, p: ProductId, a: int, b: int)
    requires UniqueCartLines(store)
    ensures var once := AddResolved(store, u, p, a).store;
            var twice := AddResolved(once, u, p, b).store;
            && UniqueCartLines(twice)
            && CartQuantity(twice, u, p) == Some(CartQuantity(store, u, p).GetOr(0) + a + b)
            && FindCartLine(once, u, p).Some?
            && |twice| == |once|
  {
    var once := AddResolved(store, u, p, a).store;
    assert CartQuantity(once, u, p).Some?;
  }

  // ---------------------------------------------------------------- cart-restricted resolution

  /** `search JOIN shopping_cart ... ORDER BY search.score DESC LIMIT 1`: the best-scored
      fused row whose product the user has in the cart. */
  function PickInCart(top: seq<Scored>, store: Store, u: UserId): (r: Option<Scored>)
    requires SortedByScore(top)
    ensures r.Some? ==> r.value in top && FindCartLine(store, u, r.value.id).Some?
                        && forall c | c in top && FindCartLine(store, u, c.id).Some? :: c.score <= r.value.score
    ensures r.None? ==> forall c | c in top :: FindCartLine(store, u, c.id).None?
  {
    if top == [] then None
    else
      assert top == [top[0]] + top[1..];
      if FindCartLine(store, u, top[0].id).Some? then
        SortedHeadIsMax(top);
        Some(top[0])
      else
        PickInCart(top[1..], store, u)
  }

  /** The cart line remove and update act on: among the five fused rows, the best-scored
      product the user has in the cart. */
  function CartTarget(store: Store, retrieval: Retrieval, u: UserId): (r: Option<Scored>)
    requires WellFormed(retrieval)
    ensures r.Some? ==> retrieval.Ranked? && FindCartLine(store, u, r.value.id).Some?
    ensures retrieval.Ranked? ==>
              var top := Fuse(retrieval.semantic, retrieval.keyword, SearchLimit);
              && (r.Some? ==> r.value in top && forall c | c in top && FindCartLine(store, u, c.id).Some? :: c.score <= r.value.score)
              && (r.None? ==> forall c | c in top :: FindCartLine(store, u, c.id).None?)
  {
    match retrieval
    case EmbeddingFailed(_) => None
    case Ranked(semantic, keyword) => PickInCart(Fuse(semantic, keyword, SearchLimit), store, u)
  }

  // ---------------------------------------------------------------- remove_product_from_cart

  /** `remove_product_from_cart`: delete the user's in-cart line for the target product. */
  function RemoveProductFromCart(store: Store, retrieval: Retrieval, u: UserId): (r: Outcome)
    requires WellFormed(retrieval)
    ensures retrieval.Ranked? && CartTarget(store, retrieval, u).None? ==> r == Outcome(store, NotInCart)
    ensures r.message == Done <==> CartTarget(store, retrieval, u).Some?
    ensures r.message == Done ==>
              && CartTarget(store, retrieval, u).Some?
              && var p := CartTarget(store, retrieval, u).value.id;
                 && |r.store| < |store|
                 && forall l :: l in r.store <==> l in store && !InCartOf(l, u, p)
    ensures forall l | l in r.store :: l in store
    ensures forall l | l in store && l.status == Paid :: l in r.store
    ensures UniqueCartLines(store) ==> UniqueCartLines(r.store)
    ensures retrieval.EmbeddingFailed? ==> r == Outcome(store, ErrorMessage(retrieval.reason))
    ensures forall l: CartLine | l.status == Paid || l.user != u :: multiset(r.store)[l] == multiset(store)[l]
    ensures r.message == Done ==>
              && CartTarget(store, retrieval, u).Some?
              && forall l :: multiset(r.store)[l] ==
                   if InCartOf(l, u, CartTarget(store, retrieval, u).value.id) then 0 else multiset(store)[l]
  {
    match retrieval
    case EmbeddingFailed(e) => Outcome(store, ErrorMessage(e))
    case Ranked(_, _) =>
      match CartTarget(store, retrieval, u)
      case None => Outcome(store, NotInCart)
      case Some(c) => Outcome(DeleteCartLines(store, u, c.id), Done)
  }

  // ---------------------------------------------------------------- update_product_quantity

  /** The update step once the cart line is known: refuse a request equal to the current
      quantity, otherwise set the line's quantity. */
  function UpdateResolved(store: Store, u: UserId, p: ProductId, q: int): (r: Outcome)
    requires FindCartLine(store, u, p).Some?
    ensures CartQuantity(store, u, p) == Some(q) ==> r == Outcome(store, SameQuantity)
    ensures |r.store| == |store|
    ensures CartQuantity(store, u, p) != Some(q) ==>
              && r.message == Done
              && CartQuantity(r.store, u, p) == Some(q)
              && forall k | 0 <= k < |store| && !InCartOf(store[k], u, p) :: r.store[k] == store[k]
    ensures CartQuantity(store, u, p) != Some(q) ==>
              forall k | 0 <= k < |store| :: r.store[k] == if InCartOf(store[k], u, p) then store[k].(quantity := q) else store[k]
    ensures forall k | 0 <= k < |store| && store[k].status == Paid :: r.store[k] == store[k]
    ensures UniqueCartLines(store) ==> UniqueCartLines(r.store)
  {
    var i := FindCartLine(store, u, p).value;
    if store[i].quantity == q then Outcome(store, SameQuantity)
    else Outcome(SetCartQuantity(store, u, p, q), Done)
  }

  /** `update_product_quantity`. The row's quantity is compared before the row is checked
      for existence, so a query that matches nothing in the cart raises and is reported
      as an error; the "not in the cart" message is never produced. */
  function UpdateProductQuantity(store: Store, retrieval: Retrieval, u: UserId, q: int): (r: Outcome)
    requires WellFormed(retrieval)
    ensures |r.store| == |store|
    ensures forall k | 0 <= k < |store| && store[k].status == Paid :: r.store[k] == store[k]
    ensures UniqueCartLines(store) ==> UniqueCartLines(r.store)
    ensures (r.message == Done || r.message == SameQuantity) <==> CartTarget(store, retrieval, u).Some?
    ensures (r.message == Done || r.message == SameQuantity) ==>
              && CartTarget(store, retrieval, u).Some?
              && r == UpdateResolved(store, u, CartTarget(store, retrieval, u).value.id, q)
    ensures retrieval.Ranked? && CartTarget(store, retrieval, u).None? ==>
              r == Outcome(store, ErrorMessage(NoneNotSubscriptable))
    ensures r.message != ProductNotInCart
    ensures retrieval.EmbeddingFailed? ==> r == Outcome(store, ErrorMessage(retrieval.reason))
  {
    match retrieval
    case EmbeddingFailed(e) =>
      ErrorIsNoAnswer(e);
      Outcome(store, ErrorMessage(e))
    case Ranked(_, _) =>
      match CartTarget(store, retrieval, u)
      case None =>
        ErrorIsNoAnswer(NoneNotSubscriptable);
        Outcome(store, ErrorMessage(NoneNotSubscriptable))
      case Some(c) =>
        var r := UpdateResolved(store, u, c.id, q);
        assert r.message == SameQuantity || r.message == Done;
        r
  }

  // ---------------------------------------------------------------- pay_cart

  /** `pay_cart`: when some in-cart line of the user has a positive quantity, every
      in-cart line of the user (whatever its quantity) becomes paid, dated today and due
      in three days. */
  function PayCart(store: Store, u: UserId, today: int): (r: Outcome)
    ensures r.message == NothingToPay <==> !HasPayable(store, u)
    ensures !HasPayable(store, u) ==> r.store == store
    ensures HasPayable(store, u) ==>
              && r.message == Done
              && |r.store| == |store|
              && (forall k | 0 <= k < |store| && InCartOfUser(store[k], u) :: r.store[k] == PaidLine(store[k], today))
              && (forall k | 0 <= k < |r.store| :: !InCartOfUser(r.store[k], u))
    ensures forall k | 0 <= k < |store| && !InCartOfUser(store[k], u) :: k < |r.store| && r.store[k] == store[k]
    ensures UniqueCartLines(store) ==> UniqueCartLines(r.store)
  {
    if HasPayable(store, u) then Outcome(MarkPaid(store, u, today), Done)
    else Outcome(store, NothingToPay)
  }

  /** Paying twice: the second payment finds nothing to pay and changes nothing. */
  lemma PayTwiceIsNoOp(store: Store, u: UserId, today: int, later: int)
    ensures var paid := PayCart(store, u, today).store;
            PayCart(paid, u, later) == Outcome(paid, NothingToPay)
  {
  }

  // ---------------------------------------------------------------- check_products_status

  function ArrivalText(arrival: Option<int>, renderDay: int -> string): string {
    match arrival
    case None => "None"
    case Some(d) => renderDay(d)
  }

  /** One line of the status report. */
  function StatusRowText(j: JoinedLine, renderDay: int -> string): (s: string)
    ensures "Product: " <= s
  {
    "Product: " + j.product.name + ", Quantity: " + IntToString(j.line.quantity) + ", Status: "
      + StatusText(j.line.status) + ", Estimated Date Arrival: " + ArrivalText(j.line.arrival, renderDay) + "\n, "
  }

  /** A status line shows the full name, the quantity, the status and, last, the arrival
      day (`None` while the line is still in the cart). */
  lemma StatusRowFields(j: JoinedLine, renderDay: int -> string)
    ensures var s, q := StatusRowText(j, renderDay), IntToString(j.line.quantity);
            && "Product: " + j.product.name + ", Quantity: " <= s
            && (var k := |"Product: " + j.product.name + ", Quantity: "|; k + |q| <= |s| && s[k..k + |q|] == q)
            && Infix(", Status: " + StatusText(j.line.status) + ", Estimated Date Arrival: ", s)
            && (var tail := ", Estimated Date Arrival: " + ArrivalText(j.line.arrival, renderDay) + "\n, ";
                |tail| <= |s| && s[|s| - |tail|..] == tail)
  {
    BlockFields("Product: " + j.product.name + ", Quantity: ", IntToString(j.line.quantity), ", Status: ",
                StatusText(j.line.status), ", Estimated Date Arrival: ", ArrivalText(j.line.arrival, renderDay), "\n, ");
  }

  function StatusRowOf(renderDay: int -> string): JoinedLine -> string {
    j => StatusRowText(j, renderDay)
  }

  /** The user's lines, one row after another, with nothing between the rows. */
  function StatusRowsText(rows: seq<JoinedLine>, renderDay: int -> string): (s: string)
    ensures rows != [] ==> "Product: " <= s
    ensures forall j | j in rows :: Infix(StatusRowText(j, renderDay), s)
    ensures forall i | 0 <= i < |rows| ::
              s == ConcatMap(rows[..i], StatusRowOf(renderDay)) + StatusRowText(rows[i], renderDay)
                   + ConcatMap(rows[i + 1..], StatusRowOf(renderDay))
  {
    ConcatMapContains(rows, StatusRowOf(renderDay));
    ConcatMapAround(rows, StatusRowOf(renderDay));
    assert rows != [] ==> rows[..0] == [];
    ConcatMap(rows, StatusRowOf(renderDay))
  }

  /** `check_products_status`: every line of the user, in the cart or paid. `renderDay`
      stands for how a date value prints. */
  function CheckProductsStatus(store: Store, listing: ProductListing, u: UserId, renderDay: int -> string): (r: string)
    ensures r == NoProducts <==> forall l | l in store :: !(l.user == u && Lookup(listing, l.product).Some?)
    ensures r != NoProducts ==> "Product: " <= r
    ensures forall l | l in store && l.user == u && Lookup(listing, l.product).Some? ::
              Infix(StatusRowText(JoinedLine(l, Lookup(listing, l.product).value), renderDay), r)
    ensures r != NoProducts ==>
              exists rows | JoinedFrom(rows, store, listing, OwnLines(u)) :: r == StatusRowsText(rows, renderDay)
  {
    var rows := JoinProducts(store, listing, OwnLines(u));
    if rows == [] then NoProducts
    else
      assert rows[0] in rows;
      assert StatusRowsText(rows, renderDay)[0] == 'P';
      StatusRowsText(rows, renderDay)
  }

  /** After a payment on day `today`, the status report shows each line that was in the
      cart as paid, arriving three days later. */
  lemma CheckAfterPay(store: Store, listing: ProductListing, u: UserId, today: int, renderDay: int -> string, k: nat)
    requires HasPayable(store, u)
    requires k < |store| && InCartOfUser(store[k], u) && Lookup(listing, store[k].product).Some?
    ensures var report := CheckProductsStatus(PayCart(store, u, today).store, listing, u, renderDay);
            var p := Lookup(listing, store[k].product).value;
            Infix("Product: " + p.name + ", Quantity: " + IntToString(store[k].quantity) + ", Status: " + "PAID"
                    + ", Estimated Date Arrival: " + renderDay(today + 3) + "\n, ", report)
  {
    var paid := PayCart(store, u, today).store;
    var l := paid[k];
    assert l == PaidLine(store[k], today);
    assert l in paid && l.user == u && l.product == store[k].product;
  }
}

=== FILE: fusion.dfy ===
/** Reciprocal-rank fusion of a semantic and a keyword ranking, as the hybrid
    search query computes it. The two rankings are inputs: each is a relevance
    order of product ids (the vector-distance order and the full-text order), and
    a product's rank in it is its position counted from 1. */
module Fusion {
  import opened Wrappers
  import opened Seqs
  import opened Catalog

  /** The smoothing constant `k` of the fused score. */
  const K: real := 60.0

  /** Rows each ranking keeps before fusion (`LIMIT 20`). */
  const CandidateDepth: nat := 20

  /** Fused rows a search keeps (`LIMIT 5`). */
  const SearchLimit: nat := 5

  /** Fused rows the add operation keeps (`LIMIT 1`). */
  const ResolveLimit: nat := 1

  /** A fused row: a product id and its fused score. */
  datatype Scored = Scored(id: ProductId, score: real)

  function Ids(r: seq<Scored>): (ids: seq<ProductId>)
    ensures |ids| == |r| && forall i | 0 <= i < |r| :: ids[i] == r[i].id
  {
    seq(|r|, i requires 0 <= i < |r| => r[i].id)
  }

  /** The rank of `id` in a ranking (its 1-based position), or None when the
      ranking does not hold it (the NULL side of the outer join). */
  function RankOf(l: seq<ProductId>, id: ProductId): (r: Option<nat>)
    ensures r.Some? ==> 1 <= r.value <= |l| && l[r.value - 1] == id
                        && forall k | 0 <= k < r.value - 1 :: l[k] != id
    ensures r.None? <==> id !in l
  {
    if l == [] then None
    else if l[0] == id then Some(1)
    else
      assert l == [l[0]] + l[1..];
      match RankOf(l[1..], id)
      case None => None
      case Some(k) => Some(k + 1)
  }

  /** In a ranking without repeats the element at position i has rank i + 1. */
  lemma RankOfDistinct(l: seq<ProductId>, i: nat)
    requires Distinct(l) && i < |l|
    ensures RankOf(l, l[i]) == Some(i + 1)
  {
    assert l[i] in l;
  }

  /** Filtering a ranking without repeats keeps the relative order of what it keeps:
      one kept id ranks before another in the filtered ranking exactly when it did in
      the original one. */
  lemma {:induction false} FilterKeepsRankOrder(s: seq<ProductId>, keep: ProductId -> bool, x: ProductId, y: ProductId)
    requires Distinct(s)
    requires x in Filter(s, keep) && y in Filter(s, keep)
    ensures RankOf(Filter(s, keep), x).value < RankOf(Filter(s, keep), y).value
            <==> RankOf(s, x).value < RankOf(s, y).value
    decreases |s|
  {
    var r := Filter(s, keep);
    var t := s[1..];
    var rest := Filter(t, keep);
    assert s == [s[0]] + t;
    DistinctCons(s[0], t);
    if keep(s[0]) {
      assert r == [s[0]] + rest && r[1..] == rest;
      if x != s[0] && y != s[0] {
        FilterKeepsRankOrder(t, keep, x, y);
      }
    } else {
      assert r == rest;
      FilterKeepsRankOrder(t, keep, x, y);
    }
  }

  /** `FilterKeepsRankOrder` for every pair of kept ids. */
  lemma FilterKeepsRankOrders(s: seq<ProductId>, keep: ProductId -> bool)
    ensures Distinct(s) ==>
              var r := Filter(s, keep);
              forall x, y | x in r && y in r ::
                RankOf(r, x).value < RankOf(r, y).value <==> RankOf(s, x).value < RankOf(s, y).value
  {
    if Distinct(s) {
      var r := Filter(s, keep);
      forall x, y | x in r && y in r
        ensures RankOf(r, x).value < RankOf(r, y).value <==> RankOf(s, x).value < RankOf(s, y).value
      {
        FilterKeepsRankOrder(s, keep, x, y);
      }
    }
  }

  /** One ranking's contribution `COALESCE(1.0 / (k + rank), 0.0)`. */
  function Term(l: seq<ProductId>, id: ProductId): real {
    match RankOf(l, id)
    case None => 0.0
    case Some(r) => 1.0 / (K + r as real)
  }

  /** The fused score of `id` over two already-truncated rankings. */
  function RrfScore(semantic: seq<ProductId>, keyword: seq<ProductId>, id: ProductId): real {
    Term(semantic, id) + Term(keyword, id)
  }

  /** The fused score of `id` as the search query computes it: each ranking is first
      cut to its top `CandidateDepth` rows. */
  function FusedScore(semantic: seq<ProductId>, keyword: seq<ProductId>, id: ProductId): real {
    RrfScore(Prefix(semantic, CandidateDepth), Prefix(keyword, CandidateDepth), id)
  }

  /** Whether `id` survives the `LIMIT 20` of at least one ranking. */
  predicate IsCandidate(semantic: seq<ProductId>, keyword: seq<ProductId>, id: ProductId) {
    id in Prefix(semantic, CandidateDepth) || id in Prefix(keyword, CandidateDepth)
  }

  function NotIn(s: seq<ProductId>): ProductId -> bool {
    x => x !in s
  }

  /** The ids of the full outer join: every id of the first ranking, then the ids
      that only the second one holds. */
  function JoinedIds(semantic: seq<ProductId>, keyword: seq<ProductId>): (ids: seq<ProductId>)
    requires Distinct(semantic) && Distinct(keyword)
    ensures Distinct(ids)
    ensures forall x :: x in ids <==> x in semantic || x in keyword
  {
    var extra := Filter(keyword, NotIn(semantic));
    DistinctAppend(semantic, extra);
    semantic + extra
  }

  function ScoreAll(semantic: seq<ProductId>, keyword: seq<ProductId>, ids: seq<ProductId>): (r: seq<Scored>)
    ensures |r| == |ids|
    ensures forall i | 0 <= i < |ids| :: r[i] == Scored(ids[i], RrfScore(semantic, keyword, ids[i]))
  {
    seq(|ids|, i requires 0 <= i < |ids| => Scored(ids[i], RrfScore(semantic, keyword, ids[i])))
  }

  lemma CandidateRows(semantic: seq<ProductId>, keyword: seq<ProductId>)
    requires Distinct(semantic) && Distinct(keyword)
    ensures var r := ScoreAll(semantic, keyword, JoinedIds(semantic, keyword));
            && Distinct(Ids(r))
            && forall c :: c in r <==> ((c.id in semantic || c.id in keyword)
                                        && c.score == RrfScore(semantic, keyword, c.id))
  {
    var ids := JoinedIds(semantic, keyword);
    var r := ScoreAll(semantic, keyword, ids);
    assert Ids(r) == ids;
    forall c: Scored | (c.id in semantic || c.id in keyword) && c.score == RrfScore(semantic, keyword, c.id)
      ensures c in r
    {
      var i :| 0 <= i < |ids| && ids[i] == c.id;
      assert r[i] == c;
    }
  }

  /** The rows of the fused query before ordering: one per joined id, with its score. */
  function Candidates(semantic: seq<ProductId>, keyword: seq<ProductId>): (r: seq<Scored>)
    requires Distinct(semantic) && Distinct(keyword)
    ensures Distinct(Ids(r))
    ensures forall c :: c in r <==> ((c.id in semantic || c.id in keyword)
                                     && c.score == RrfScore(semantic, keyword, c.id))
  {
    CandidateRows(semantic, keyword);
    ScoreAll(semantic, keyword, JoinedIds(semantic, keyword))
  }

  /** Non-increasing scores (`ORDER BY score DESC`). */
  predicate SortedByScore(s: seq<Scored>) {
    forall i, j | 0 <= i < j < |s| :: s[i].score >= s[j].score
  }

  lemma SortedCons(h: Scored, t: seq<Scored>)
    requires SortedByScore(t)
    requires forall e | e in t :: e.score <= h.score
    ensures SortedByScore([h] + t)
  {
    var s := [h] + t;
    forall i, j | 0 <= i < j < |s| ensures s[i].score >= s[j].score {
      assert s[j] == t[j - 1];
      if i > 0 {
        assert s[i] == t[i - 1];
      } else {
        assert t[j - 1] in t;
      }
    }
  }

  /** Insert a row into a score-ordered sequence after every row that scores at least as high. */
  function InsertByScore(x: Scored, s: seq<Scored>): (r: seq<Scored>)
    requires SortedByScore(s)
    ensures SortedByScore(r)
    ensures multiset(r) == multiset(s) + multiset{x}
    ensures Distinct(s) && x !in s ==> Distinct(r)
  {
    if s == [] || s[0].score < x.score then
      InsertFront(x, s);
      [x] + s
    else
      assert s == [s[0]] + s[1..];
      var rest := InsertByScore(x, s[1..]);
      InsertBehind(x, s, rest);
      [s[0]] + rest
  }

  /** The head of a score-ordered sequence scores at least as high as any of its rows. */
  lemma SortedHeadIsMax(s: seq<Scored>)
    requires SortedByScore(s) && s != []
    ensures forall e | e in s :: e.score <= s[0].score
  {
    forall e | e in s ensures e.score <= s[0].score {
      var j :| 0 <= j < |s| && s[j] == e;
      assert j == 0 || s[0].score >= s[j].score;
    }
  }

  lemma InsertFront(x: Scored, s: seq<Scored>)
    requires SortedByScore(s)
    requires s == [] || s[0].score < x.score
    ensures SortedByScore([x] + s)
    ensures Distinct(s) && x !in s ==> Distinct([x] + s)
  {
    DistinctCons(x, s);
    if s != [] {
      SortedHeadIsMax(s);
    }
    SortedCons(x, s);
  }

  lemma InsertBehind(x: Scored, s: seq<Scored>, rest: seq<Scored>)
    requires SortedByScore(s) && s != [] && s[0].score >= x.score
    requires SortedByScore(rest)
    requires multiset(rest) == multiset(s[1..]) + multiset{x}
    requires Distinct(s[1..]) && x !in s[1..] ==> Distinct(rest)
    ensures SortedByScore([s[0]] + rest)
    ensures multiset([s[0]] + rest) == multiset(s) + multiset{x}
    ensures Distinct(s) && x !in s ==> Distinct([s[0]] + rest)
  {
    assert s == [s[0]] + s[1..];
    forall e | e in rest ensures e.score <= s[0].score {
      assert e in multiset(rest);
      if e != x {
        assert e in multiset(s[1..]);
        var j :| 0 <= j < |s[1..]| && s[1..][j] == e;
        assert s[j + 1] == e;
      }
    }
    SortedCons(s[0], rest);
    DistinctCons(s[0], s[1..]);
    DistinctCons(s[0], rest);
    assert s[0] in rest ==> s[0] in multiset(rest);
  }

  /** Insertion sort by descending score; the result is a permutation of the input. */
  function SortByScore(s: seq<Scored>): (r: seq<Scored>)
    ensures SortedByScore(r)
    ensures multiset(r) == multiset(s)
    ensures Distinct(s) ==> Distinct(r)
  {
    if s == [] then []
    else
      assert s == [s[0]] + s[1..];
      var rest := SortByScore(s[1..]);
      DistinctCons(s[0], s[1..]);
      assert s[0] in rest ==> s[0] in multiset(s[1..]);
      InsertByScore(s[0], rest)
  }

  lemma IdsDistinctRows(r: seq<Scored>)
    requires Distinct(Ids(r))
    ensures Distinct(r)
  {
    forall i, j | 0 <= i < j < |r| ensures r[i] != r[j] {
      assert Ids(r)[i] != Ids(r)[j];
    }
  }

  /** What cutting a score-ordered permutation of `cands` to `limit` rows keeps. */
  lemma TopRows(cands: seq<Scored>, limit: nat)
    requires Distinct(cands)
    ensures var r := Prefix(SortByScore(cands), limit);
            && |r| <= limit
            && SortedByScore(r)
            && Distinct(r)
            && (forall c | c in r :: c in cands)
            && (forall c | c in cands && c !in r :: |r| == limit && forall d | d in r :: c.score <= d.score)
            && (r == [] <==> limit == 0 || cands == [])
  {
    var sorted := SortByScore(cands);
    var r := Prefix(sorted, limit);
    PrefixKeepsOrder(sorted, limit);
    DistinctPrefix(sorted, limit);
    TopRowsAreCandidates(cands, limit);
    TopRowsOutscoreTheRest(cands, limit);
    if cands != [] {
      assert cands[0] in multiset(sorted);
    }
  }

  lemma PrefixKeepsOrder(sorted: seq<Scored>, limit: nat)
    requires SortedByScore(sorted)
    ensures SortedByScore(Prefix(sorted, limit))
  {
    var r := Prefix(sorted, limit);
    assert forall i | 0 <= i < |r| :: r[i] == sorted[i];
  }

  lemma TopRowsAreCandidates(cands: seq<Scored>, limit: nat)
    ensures forall c | c in Prefix(SortByScore(cands), limit) :: c in cands
  {
    var sorted := SortByScore(cands);
    var r := Prefix(sorted, limit);
    forall c | c in r ensures c in cands {
      var i :| 0 <= i < |r| && r[i] == c;
      assert r[i] == sorted[i];
      assert sorted[i] in multiset(sorted);
    }
  }

  lemma TopRowsOutscoreTheRest(cands: seq<Scored>, limit: nat)
    ensures var r := Prefix(SortByScore(cands), limit);
            forall c | c in cands && c !in r :: |r| == limit && forall d | d in r :: c.score <= d.score
  {
    var sorted := SortByScore(cands);
    var r := Prefix(sorted, limit);
    forall c | c in cands && c !in r
      ensures |r| == limit && forall d | d in r :: c.score <= d.score
    {
      assert c in multiset(sorted);
      var k :| 0 <= k < |sorted| && sorted[k] == c;
      forall i | 0 <= i < |r| ensures sorted[i] != c {
        assert r[i] == sorted[i] && r[i] in r;
      }
      forall d | d in r ensures c.score <= d.score {
        var i :| 0 <= i < |r| && r[i] == d;
        assert r[i] == sorted[i];
        assert sorted[i].score >= sorted[k].score;
      }
    }
  }

  lemma FuseFacts(semantic: seq<ProductId>, keyword: seq<ProductId>, limit: nat)
    requires Distinct(semantic) && Distinct(keyword)
    ensures var r := Prefix(SortByScore(Candidates(Prefix(semantic, CandidateDepth), Prefix(keyword, CandidateDepth))), limit);
            && |r| <= limit
            && SortedByScore(r)
            && Distinct(Ids(r))
            && (forall c | c in r :: IsCandidate(semantic, keyword, c.id) && c.score == FusedScore(semantic, keyword, c.id))
            && (forall x | IsCandidate(semantic, keyword, x) && x !in Ids(r) ::
                  |r| == limit && forall c | c in r :: FusedScore(semantic, keyword, x) <= c.score)
            && (r == [] <==> limit == 0 || (semantic == [] && keyword == []))
  {
    var a, b := Prefix(semantic, CandidateDepth), Prefix(keyword, CandidateDepth);
    DistinctPrefix(semantic, CandidateDepth);
    DistinctPrefix(keyword, CandidateDepth);
    var cands := Candidates(a, b);
    IdsDistinctRows(cands);
    TopRows(cands, limit);
    var r := Prefix(SortByScore(cands), limit);
    assert Distinct(Ids(r)) by {
      forall i, j | 0 <= i < j < |r| ensures r[i].id != r[j].id {
        assert r[i] in r && r[j] in r;
      }
    }
    forall x | IsCandidate(semantic, keyword, x) && x !in Ids(r)
      ensures |r| == limit && forall c | c in r :: FusedScore(semantic, keyword, x) <= c.score
    {
      var row := Scored(x, RrfScore(a, b, x));
      assert row in cands;
      forall k | 0 <= k < |r| ensures r[k] != row {
        assert Ids(r)[k] in Ids(r);
      }
      assert row !in r;
    }
    assert cands == [] <==> (semantic == [] && keyword == []) by {
      if semantic != [] || keyword != [] {
        var x := if semantic != [] then semantic[0] else keyword[0];
        assert a != [] ==> a[0] == semantic[0];
        assert b != [] ==> b[0] == keyword[0];
        assert Scored(x, RrfScore(a, b, x)) in cands;
      }
      if cands != [] {
        assert cands[0] in cands;
      }
    }
  }

  /** The fused ranking: the joined rows, ordered by descending fused score and cut to
      `limit` rows. Ties between equal scores are left in an order the model picks;
      the contract states only what `ORDER BY score DESC LIMIT limit` promises. */
  function Fuse(semantic: seq<ProductId>, keyword: seq<ProductId>, limit: nat): (r: seq<Scored>)
    requires Distinct(semantic) && Distinct(keyword)
    ensures |r| <= limit
    ensures SortedByScore(r)
    ensures Distinct(Ids(r))
    ensures forall c | c in r :: IsCandidate(semantic, keyword, c.id) && c.score == FusedScore(semantic, keyword, c.id)
    ensures forall x | IsCandidate(semantic, keyword, x) && x !in Ids(r) ::
              |r| == limit && forall c | c in r :: FusedScore(semantic, keyword, x) <= c.score
    ensures r == [] <==> limit == 0 || (semantic == [] && keyword == [])
  {
    FuseFacts(semantic, keyword, limit);
    Prefix(SortByScore(Candidates(Prefix(semantic, CandidateDepth), Prefix(keyword, CandidateDepth))), limit)
  }

  /** A product at 0-based position i of the semantic order and j of the keyword
      order, both inside the top `CandidateDepth`, scores 1/(k + i + 1) + 1/(k + j + 1). */
  lemma ScoreRankedInBoth(semantic: seq<ProductId>, keyword: seq<ProductId>, i: nat, j: nat)
    requires Distinct(semantic) && Distinct(keyword)
    requires i < CandidateDepth && i < |semantic|
    requires j < CandidateDepth && j < |keyword|
    requires semantic[i] == keyword[j]
    ensures FusedScore(semantic, keyword, semantic[i]) == 1.0 / (K + (i + 1) as real) + 1.0 / (K + (j + 1) as real)
  {
    var a, b := Prefix(semantic, CandidateDepth), Prefix(keyword, CandidateDepth);
    DistinctPrefix(semantic, CandidateDepth);
    DistinctPrefix(keyword, CandidateDepth);
    assert a[i] == semantic[i] && b[j] == keyword[j];
    RankOfDistinct(a, i);
    RankOfDistinct(b, j);
  }

  /** A product inside the semantic top `CandidateDepth` at position i that the keyword
      top does not hold gets exactly the one term 1/(k + i + 1). */
  lemma ScoreRankedSemanticOnly(semantic: seq<ProductId>, keyword: seq<ProductId>, i: nat)
    requires Distinct(semantic) && Distinct(keyword)
    requires i < CandidateDepth && i < |semantic|
    requires semantic[i] !in Prefix(keyword, CandidateDepth)
    ensures FusedScore(semantic, keyword, semantic[i]) == 1.0 / (K + (i + 1) as real)
  {
    var a := Prefix(semantic, CandidateDepth);
    DistinctPrefix(semantic, CandidateDepth);
    assert a[i] == semantic[i];
    RankOfDistinct(a, i);
  }

  /** The keyword-only counterpart of `ScoreRankedSemanticOnly`. */
  lemma ScoreRankedKeywordOnly(semantic: seq<ProductId>, keyword: seq<ProductId>, j: nat)
    requires Distinct(semantic) && Distinct(keyword)
    requires j < CandidateDepth && j < |keyword|
    requires keyword[j] !in Prefix(semantic, CandidateDepth)
    ensures FusedScore(semantic, keyword, keyword[j]) == 1.0 / (K + (j + 1) as real)
  {
    var b := Prefix(keyword, CandidateDepth);
    DistinctPrefix(keyword, CandidateDepth);
    assert b[j] == keyword[j];
    RankOfDistinct(b, j);
  }
}

=== FILE: llm.dfy ===
/** The chat router (`utils/llm.py`): the menu of operations offered to the language
    model, the binding of the model's call arguments to an operation, and the reply the
    router produces from the model's first-pass decision. The model itself is an
    oracle: its decision and the retrieval rankings are inputs. */
module Llm {
  import opened Wrappers
  import opened Catalog
  import opened CartStore
  import DbLlm
  import Seqs
  import Text

  // ---------------------------------------------------------------- operations

  /** The seven operations the router knows, in menu order. */
  datatype Operation =
    | SearchProducts
    | ShowCart
    | AddProductToCart
    | RemoveProductFromCart
    | UpdateProductQuantity
    | PayCart
    | CheckProductsStatus

  /** The name under which the menu offers an operation. */
  function NameOf(op: Operation): string {
    match op
    case SearchProducts => "search_products"
    case ShowCart => "show_cart"
    case AddProductToCart => "add_product_to_cart"
    case RemoveProductFromCart => "remove_product_from_cart"
    case UpdateProductQuantity => "update_product_quantity"
    case PayCart => "pay_cart"
    case CheckProductsStatus => "check_products_status"
  }

  /** The name of the store function each operation calls (only the search differs). */
  function HandlerName(op: Operation): string {
    if op == SearchProducts then "search_products_llm" else NameOf(op)
  }

  /** The router's chain of name comparisons: the operation a called name selects. */
  function OperationNamed(name: string): (r: Option<Operation>)
    ensures r.Some? ==> NameOf(r.value) == name
    ensures r.None? ==> forall op: Operation :: NameOf(op) != name
  {
    if name == "search_products" then Some(SearchProducts)
    else if name == "show_cart" then Some(ShowCart)
    else if name == "add_product_to_cart" then Some(AddProductToCart)
    else if name == "remove_product_from_cart" then Some(RemoveProductFromCart)
    else if name == "update_product_quantity" then Some(UpdateProductQuantity)
    else if name == "pay_cart" then Some(PayCart)
    else if name == "check_products_status" then Some(CheckProductsStatus)
    else None
  }

  /** Every operation is selected by its own name and by no other. */
  lemma NamesSelectTheirOperation(op: Operation, name: string)
    ensures OperationNamed(name) == Some(op) <==> name == NameOf(op)
  {
  }

  // ---------------------------------------------------------------- the menu

  /** The argument names a handler can take. */
  datatype ArgumentName = UserIdArgument | SearchQueryArgument | QuantityArgument | PriceFilterArgument

  function Spelling(a: ArgumentName): string {
    match a
    case UserIdArgument => "user_id"
    case SearchQueryArgument => "search_query"
    case QuantityArgument => "quantity"
    case PriceFilterArgument => "price_filter"
  }

  /** A field of an object-typed parameter. */
  datatype Field = Field(name: string, kind: string, description: string)

  /** A declared parameter of a menu entry: its name, JSON type, description and, for an
      object, its fields. */
  datatype Parameter = Parameter(name: ArgumentName, kind: string, description: string, fields: seq<Field>)

  /** One entry of the menu: name, description, declared parameters and required parameters. */
  datatype FunctionSpec = FunctionSpec(name: string, description: string, parameters: seq<Parameter>,
                                       required: seq<ArgumentName>)

  /** The names of the parameters an entry declares, in order. */
  function ParameterNames(f: FunctionSpec): (names: seq<ArgumentName>)
    ensures |names| == |f.parameters| && forall i | 0 <= i < |f.parameters| :: names[i] == f.parameters[i].name
  {
    seq(|f.parameters|, i requires 0 <= i < |f.parameters| => f.parameters[i].name)
  }

  /** The parameters an entry declares, in order; they are also the handler's parameters. */
  function Declared(op: Operation): seq<ArgumentName> {
    match op
    case SearchProducts => [SearchQueryArgument, PriceFilterArgument]
    case AddProductToCart | UpdateProductQuantity => [UserIdArgument, SearchQueryArgument, QuantityArgument]
    case RemoveProductFromCart => [UserIdArgument, SearchQueryArgument]
    case ShowCart | PayCart | CheckProductsStatus => [UserIdArgument]
  }

  /** The parameters an entry marks as required. */
  function Required(op: Operation): seq<ArgumentName> {
    match op
    case SearchProducts => [SearchQueryArgument]
    case AddProductToCart | RemoveProductFromCart => [UserIdArgument, SearchQueryArgument]
    case UpdateProductQuantity => [UserIdArgument, SearchQueryArgument, QuantityArgument]
    case ShowCart | PayCart | CheckProductsStatus => [UserIdArgument]
  }

  /** The JSON type of a parameter. */
  function Kind(a: ArgumentName): string {
    match a
    case UserIdArgument | QuantityArgument => "integer"
    case SearchQueryArgument => "string"
    case PriceFilterArgument => "object"
  }

  const OperatorField: Field :=
    Field("comparison_operator", "string", "Operator to compare the column value, either '>', '<', '>=', '<=', '='")
  const ValueField: Field := Field("value", "number", "Value to compare against, e.g. 30")

  /** The properties of the one object-typed parameter, the price filter. */
  function Fields(a: ArgumentName): seq<Field> {
    if a == PriceFilterArgument then [OperatorField, ValueField] else []
  }

  const UserIdText: string := "User identification, e.g. 1"
  const QueryText: string := "Query string to use for full text search, e.g. 'protein powder'"
  const AddQuantityText: string := "The number of products added, e.g. 3"
  const UpdateQuantityText: string := "The number of products expected to update, e.g. 3"
  const PriceFilterText: string := "Filter search results based on price of the product"

  function ParameterDescription(op: Operation, a: ArgumentName): string {
    match a
    case UserIdArgument => UserIdText
    case SearchQueryArgument => QueryText
    case QuantityArgument => if op == AddProductToCart then AddQuantityText else UpdateQuantityText
    case PriceFilterArgument => PriceFilterText
  }

  const SearchText: string := "Search PostgreSQL database for relevant products based on user query"
  const ShowText: string := "List a shopping cart in PostgreSQL database based on user"
  const AddText: string := "Add products into a shopping cart in PostgreSQL database based on user"
  const RemoveText: string := "Remove products out of a shopping cart in PostgreSQL database based on user"
  const UpdateText: string := "Update products' quantity in a shopping cart in PostgreSQL database based on user"
  const PayText: string := "Make a payment for products in a shopping cart in PostgreSQL database"
  const CheckText: string := "Check status of products the user choose in PostgreSQL database"

  /** The description text of an operation's menu entry. */
  function Description(op: Operation): string {
    match op
    case SearchProducts => SearchText
    case ShowCart => ShowText
    case AddProductToCart => AddText
    case RemoveProductFromCart => RemoveText
    case UpdateProductQuantity => UpdateText
    case PayCart => PayText
    case CheckProductsStatus => CheckText
  }

  function ParameterOf(op: Operation, a: ArgumentName): Parameter {
    Parameter(a, Kind(a), ParameterDescription(op, a), Fields(a))
  }

  /** The menu entry offered for an operation. */
  function SpecOf(op: Operation): (f: FunctionSpec)
    ensures f.name == NameOf(op) && f.required == Required(op)
    ensures ParameterNames(f) == Declared(op)
  {
    var d := Declared(op);
    var ps := seq(|d|, i requires 0 <= i < |d| => ParameterOf(op, d[i]));
    assert ParameterNames(FunctionSpec(NameOf(op), Description(op), ps, Required(op))) == d;
    FunctionSpec(NameOf(op), Description(op), ps, Required(op))
  }

  /** The operations in the order the menu lists them. */
  const MenuOrder: seq<Operation> :=
    [SearchProducts, ShowCart, AddProductToCart, RemoveProductFromCart, UpdateProductQuantity, PayCart, CheckProductsStatus]

  /** `custom_functions`: the menu sent with every first-pass request. */
  function CustomFunctions(): (m: seq<FunctionSpec>)
    ensures |m| == |MenuOrder| == 7
    ensures forall i | 0 <= i < |m| :: OperationNamed(m[i].name) == Some(MenuOrder[i])
    ensures forall op: Operation :: SpecOf(op) in m
    ensures forall i, j | 0 <= i < j < |m| :: m[i].name != m[j].name
  {
    var m := seq(7, i requires 0 <= i < 7 => SpecOf(MenuOrder[i]));
    MenuNamesSelect(m);
    MenuHoldsEveryEntry(m);
    MenuNamesDistinct(m);
    m
  }

  lemma MenuNamesDistinct(m: seq<FunctionSpec>)
    requires |m| == 7 && forall i | 0 <= i < |m| :: OperationNamed(m[i].name) == Some(MenuOrder[i])
    ensures forall i, j | 0 <= i < j < |m| :: m[i].name != m[j].name
  {
    forall i | 0 <= i < 7 ensures IndexInMenu(MenuOrder[i]) == i {
    }
    forall i, j | 0 <= i < j < |m| ensures m[i].name != m[j].name {
      assert IndexInMenu(MenuOrder[i]) != IndexInMenu(MenuOrder[j]);
    }
  }

  lemma MenuNamesSelect(m: seq<FunctionSpec>)
    requires |m| == 7 && forall i | 0 <= i < 7 :: m[i] == SpecOf(MenuOrder[i])
    ensures forall i | 0 <= i < |m| :: OperationNamed(m[i].name) == Some(MenuOrder[i])
  {
    forall i | 0 <= i < 7 ensures OperationNamed(m[i].name) == Some(MenuOrder[i]) {
      assert m[i].name == NameOf(MenuOrder[i]);
      NamesSelectTheirOperation(MenuOrder[i], m[i].name);
    }
  }

  lemma MenuHoldsEveryEntry(m: seq<FunctionSpec>)
    requires |m| == 7 && forall i | 0 <= i < 7 :: m[i] == SpecOf(MenuOrder[i])
    ensures forall op: Operation :: SpecOf(op) in m
  {
    forall op: Operation ensures SpecOf(op) in m {
      var i := IndexInMenu(op);
      assert m[i] == SpecOf(op);
    }
  }

  function IndexInMenu(op: Operation): (i: nat)
    ensures i < |MenuOrder| && MenuOrder[i] == op
  {
    match op
    case SearchProducts => 0
    case ShowCart => 1
    case AddProductToCart => 2
    case RemoveProductFromCart => 3
    case UpdateProductQuantity => 4
    case PayCart => 5
    case CheckProductsStatus => 6
  }

  /** Every required parameter of a menu entry is one it declares, and every entry but
      the search takes a user. */
  lemma RequiredAreDeclared(op: Operation)
    ensures forall a | a in SpecOf(op).required :: a in ParameterNames(SpecOf(op))
    ensures UserIdArgument in ParameterNames(SpecOf(op)) <==> op != SearchProducts
  {
    var f := SpecOf(op);
    assert f.required == Required(op) && ParameterNames(f) == Declared(op);
  }

  /** Only the price filter is an object, and only an object lists fields: the
      comparison operator (a string) and the value (a number). */
  lemma ObjectParametersHaveFields(op: Operation, p: Parameter)
    requires p in SpecOf(op).parameters
    ensures p.kind == "object" <==> p.name == PriceFilterArgument
    ensures p.fields != [] <==> p.kind == "object"
    ensures p.fields != [] ==> op == SearchProducts && |p.fields| == 2
                                && p.fields[0].kind == "string" && p.fields[1].kind == "number"
  {
    var f := SpecOf(op);
    var i :| 0 <= i < |f.parameters| && f.parameters[i] == p;
    assert p.name == Declared(op)[i] by { assert ParameterNames(f)[i] == p.name; }
  }

  /** Which parameters the menu marks as required: the search needs only its query,
      the add needs the user and query but not the quantity, the update needs all three. */
  lemma RequiredParameters()
    ensures SpecOf(SearchProducts).required == [SearchQueryArgument]
    ensures SpecOf(AddProductToCart).required == [UserIdArgument, SearchQueryArgument]
    ensures QuantityArgument in ParameterNames(SpecOf(AddProductToCart))
    ensures QuantityArgument !in SpecOf(AddProductToCart).required
    ensures SpecOf(UpdateProductQuantity).required == [UserIdArgument, SearchQueryArgument, QuantityArgument]
  {
  }

  /** The menu and the handlers disagree in one place only: the add handler has no
      default quantity, yet the menu leaves the quantity optional. Every other
      parameter a handler cannot do without is marked required. */
  lemma MandatoryVersusRequired(op: Operation, a: ArgumentName)
    requires a in MandatoryParameters(op)
    ensures a !in Required(op) <==> op == AddProductToCart && a == QuantityArgument
  {
  }

  // ---------------------------------------------------------------- binding the call

  /** The arguments of a function call, as the model supplies them (each may be absent). */
  datatype Arguments = Arguments(userId: Option<int>, searchQuery: Option<string>,
                                 quantity: Option<int>, priceFilter: Option<PriceFilter>)

  /** A fully bound operation call. */
  datatype Call =
    | Search(query: string, filter: Option<PriceFilter>)
    | Show(user: UserId)
    | Add(user: UserId, query: string, quantity: int)
    | Remove(user: UserId, query: string)
    | Update(user: UserId, query: string, quantity: int)
    | Pay(user: UserId)
    | Check(user: UserId)

  function KindOf(c: Call): Operation {
    match c
    case Search(_, _) => SearchProducts
    case Show(_) => ShowCart
    case Add(_, _, _) => AddProductToCart
    case Remove(_, _) => RemoveProductFromCart
    case Update(_, _, _) => UpdateProductQuantity
    case Pay(_) => PayCart
    case Check(_) => CheckProductsStatus
  }

  /** The user a handler with `user_id=1` as its default acts for. */
  const DefaultUser: UserId := 1
  /** The default quantity of `update_product_quantity`. */
  const DefaultQuantity: int := 1

  predicate Supplied(args: Arguments, a: ArgumentName) {
    match a
    case UserIdArgument => args.userId.Some?
    case SearchQueryArgument => args.searchQuery.Some?
    case QuantityArgument => args.quantity.Some?
    case PriceFilterArgument => args.priceFilter.Some?
  }

  /** The parameters of an operation's handler that have no default, in declaration order. */
  function MandatoryParameters(op: Operation): seq<ArgumentName> {
    match op
    case SearchProducts => [SearchQueryArgument]
    case AddProductToCart => [UserIdArgument, SearchQueryArgument, QuantityArgument]
    case RemoveProductFromCart | UpdateProductQuantity => [UserIdArgument, SearchQueryArgument]
    case ShowCart | PayCart | CheckProductsStatus => []
  }

  function AbsentFrom(args: Arguments): ArgumentName -> bool {
    a => !Supplied(args, a)
  }

  /** The mandatory parameters the arguments leave out, in declaration order. */
  function Missing(op: Operation, args: Arguments): (r: seq<ArgumentName>)
    ensures forall a :: a in r <==> a in MandatoryParameters(op) && !Supplied(args, a)
  {
    Seqs.Filter(MandatoryParameters(op), AbsentFrom(args))
  }

  function Quoted(a: ArgumentName): string {
    "'" + Spelling(a) + "'"
  }

  /** Python's listing of missing argument names: 'a'; 'a' and 'b'; 'a', 'b', and 'c'. */
  function NameList(ns: seq<ArgumentName>): string {
    if |ns| == 0 then ""
    else if |ns| == 1 then Quoted(ns[0])
    else if |ns| == 2 then Quoted(ns[0]) + " and " + Quoted(ns[1])
    else CommaList(ns[..|ns| - 1]) + ", and " + Quoted(ns[|ns| - 1])
  }

  function CommaList(ns: seq<ArgumentName>): string {
    if |ns| == 0 then ""
    else if |ns| == 1 then Quoted(ns[0])
    else Quoted(ns[0]) + ", " + CommaList(ns[1..])
  }

  /** The text of the `TypeError` a handler raises when called without mandatory arguments. */
  function MissingArgumentsText(op: Operation, missing: seq<ArgumentName>): string {
    HandlerName(op) + "() missing " + Text.NatToString(|missing|) + " required positional argument"
      + (if |missing| == 1 then "" else "s") + ": " + NameList(missing)
  }

  /** The argument shapes each handler accepts: its mandatory parameters are all there. */
  predicate Complete(op: Operation, args: Arguments) {
    match op
    case SearchProducts => args.searchQuery.Some?
    case AddProductToCart => args.userId.Some? && args.searchQuery.Some? && args.quantity.Some?
    case RemoveProductFromCart | UpdateProductQuantity => args.userId.Some? && args.searchQuery.Some?
    case ShowCart | PayCart | CheckProductsStatus => true
  }

  lemma CompleteMeansNothingMissing(op: Operation, args: Arguments)
    ensures Complete(op, args) <==> Missing(op, args) == []
  {
    var m := Missing(op, args);
    assert m != [] ==> m[0] in m;
    if !Complete(op, args) {
      match op
      case SearchProducts => assert SearchQueryArgument in m;
      case AddProductToCart =>
        if args.userId.None? { assert UserIdArgument in m; }
        else if args.searchQuery.None? { assert SearchQueryArgument in m; }
        else { assert QuantityArgument in m; }
      case RemoveProductFromCart | UpdateProductQuantity =>
        if args.userId.None? { assert UserIdArgument in m; }
        else { assert SearchQueryArgument in m; }
    }
  }

  /** Binds the model's arguments to the handler of `op`, the handler's defaults filling
      in what is absent; a handler called without a mandatory argument raises. */
  function BindCall(op: Operation, args: Arguments): (r: Attempt<Call>)
    ensures r.Raised? <==> exists a :: a in MandatoryParameters(op) && !Supplied(args, a)
    ensures r.Raised? ==> Missing(op, args) != [] && r.reason == MissingArgumentsText(op, Missing(op, args))
    ensures r.Returned? ==> KindOf(r.value) == op && Agrees(args, r.value)
  {
    CompleteMeansNothingMissing(op, args);
    if !Complete(op, args) then
      assert Missing(op, args)[0] in Missing(op, args);
      Raised(MissingArgumentsText(op, Missing(op, args)))
    else
      match op
      case SearchProducts => Returned(Search(args.searchQuery.value, args.priceFilter))
      case ShowCart => Returned(Show(args.userId.GetOr(DefaultUser)))
      case AddProductToCart => Returned(Add(args.userId.value, args.searchQuery.value, args.quantity.value))
      case RemoveProductFromCart => Returned(Remove(args.userId.value, args.searchQuery.value))
      case UpdateProductQuantity =>
        Returned(Update(args.userId.value, args.searchQuery.value, args.quantity.GetOr(DefaultQuantity)))
      case PayCart => Returned(Pay(args.userId.GetOr(DefaultUser)))
      case CheckProductsStatus => Returned(Check(args.userId.GetOr(DefaultUser)))
  }

  /** A bound call carries every supplied argument, and the handler's default where one
      with a default is absent. */
  predicate Agrees(args: Arguments, c: Call) {
    match c
    case Search(q, f) => args.searchQuery == Some(q) && args.priceFilter == f
    case Show(u) => u == args.userId.GetOr(DefaultUser)
    case Add(u, q, n) => args.userId == Some(u) && args.searchQuery == Some(q) && args.quantity == Some(n)
    case Remove(u, q) => args.userId == Some(u) && args.searchQuery == Some(q)
    case Update(u, q, n) => args.userId == Some(u) && args.searchQuery == Some(q) && n == args.quantity.GetOr(DefaultQuantity)
    case Pay(u) => u == args.userId.GetOr(DefaultUser)
    case Check(u) => u == args.userId.GetOr(DefaultUser)
  }

  /** An add the menu allows (user and query given) but without a quantity raises,
      since the handler gives the quantity no default. */
  lemma AddWithoutQuantityRaises(u: UserId, q: string)
    ensures BindCall(AddProductToCart, Arguments(Some(u), Some(q), None, None))
         == Raised("add_product_to_cart" + "() missing " + "1" + " required positional argument" + ": " + "'quantity'")
  {
    var args := Arguments(Some(u), Some(q), None, None);
    var keep := AbsentFrom(args);
    assert Seqs.Filter([QuantityArgument], keep) == [QuantityArgument];
    assert Seqs.Filter([SearchQueryArgument, QuantityArgument], keep) == [QuantityArgument];
    assert Missing(AddProductToCart, args) == [QuantityArgument];
    assert Text.NatToString(1) == "1";
    assert NameList([QuantityArgument]) == "'quantity'";
  }

  // ---------------------------------------------------------------- executing the call

  /** What the store functions are run against: the cart lines, the product listing,
      the retrieval rankings each query obtains, the current day and how a day is shown. */
  datatype World = World(store: Store, listing: ProductListing, retrieve: string -> DbLlm.Retrieval,
                         today: int, renderDay: int -> string)

  /** Every query's rankings list distinct ids, as a ranking of table rows does. */
  ghost predicate WellFormedWorld(w: World) {
    forall q :: DbLlm.WellFormed(w.retrieve(q))
  }

  /** Runs a bound call's handler: the result text and the store it leaves. Only the
      search lets a failure of the embedding service escape. */
  function Execute(c: Call, w: World): (r: Attempt<DbLlm.Outcome>)
    requires WellFormedWorld(w)
    ensures r.Raised? <==> c.Search? && w.retrieve(c.query).EmbeddingFailed?
    ensures r.Returned? && (c.Search? || c.Show? || c.Check?) ==> r.value.store == w.store
    ensures r.Returned? && c.Search? ==> DbLlm.SearchProductsLlm(w.listing, w.retrieve(c.query), c.filter) == Returned(r.value.message)
    ensures c.Show? ==> r == Returned(DbLlm.Outcome(w.store, DbLlm.ShowCart(w.store, w.listing, c.user)))
    ensures c.Add? ==> r == Returned(DbLlm.AddProductToCart(w.store, w.retrieve(c.query), c.user, c.quantity))
    ensures c.Remove? ==> r == Returned(DbLlm.RemoveProductFromCart(w.store, w.retrieve(c.query), c.user))
    ensures c.Update? ==> r == Returned(DbLlm.UpdateProductQuantity(w.store, w.retrieve(c.query), c.user, c.quantity))
    ensures c.Pay? ==> r == Returned(DbLlm.PayCart(w.store, c.user, w.today))
    ensures c.Check? ==> r == Returned(DbLlm.Outcome(w.store, DbLlm.CheckProductsStatus(w.store, w.listing, c.user, w.renderDay)))
  {
    match c
    case Search(q, f) =>
      (match DbLlm.SearchProductsLlm(w.listing, w.retrieve(q), f)
       case Raised(e) => Raised(e)
       case Returned(text) => Returned(DbLlm.Outcome(w.store, text)))
    case Show(u) => Returned(DbLlm.Outcome(w.store, DbLlm.ShowCart(w.store, w.listing, u)))
    case Add(u, q, n) => Returned(DbLlm.AddProductToCart(w.store, w.retrieve(q), u, n))
    case Remove(u, q) => Returned(DbLlm.RemoveProductFromCart(w.store, w.retrieve(q), u))
    case Update(u, q, n) => Returned(DbLlm.UpdateProductQuantity(w.store, w.retrieve(q), u, n))
    case Pay(u) => Returned(DbLlm.PayCart(w.store, u, w.today))
    case Check(u) => Returned(DbLlm.Outcome(w.store, DbLlm.CheckProductsStatus(w.store, w.listing, u, w.renderDay)))
  }

  // ---------------------------------------------------------------- prompts

  const ShopName: string := "\U{1F4AA} Healthy & Nutrition Shop \U{1F4AA}"
  const ClerkIntro: string := "You are a polite clerk of a healthy and nutrition shop named " + ShopName + ". "

  /** The system message of every first-pass request. */
  const ShopPersona: string :=
    "The user's id is 1. " + ClerkIntro
    + "You are responsible to answer questions from the users. If the user don't know what to buy, just ask them for more detail about what the user wants. Try to convince the user to buy something the user need. If question isn't about health, nutrition, exercise, and products in the shop, don't answer the question and said the question isn't related."

  /** The reply for a call to a name the menu does not offer. */
  const Fallback: string :=
    "Thank you for your message! I\U{2019}d love to assist you, but I\U{2019}m not entirely sure I understand your request. Could you please clarify or provide a bit more detail about what you're looking for?"

  /** What separates the user's prompt from the operation's result in the second pass. */
  const SourcesSeparator: string := "\n\nSources:\n\n"

  /** The system message of the second-pass request that words an operation's result. */
  function SecondPassSystem(op: Operation): string {
    ClerkIntro + SecondPassTask(op)
  }

  /** What the second pass is asked to do with the operation's result. */
  function SecondPassTask(op: Operation): string {
    match op
    case SearchProducts =>
      "The user wants to know whether products are in the store. Then, convince the user to buy products in the list. Say apology and don't show recommendation if no matched product in sources. You just show the product name with bold format, italic price in dollar behind the name, and description with bullet point."
    case ShowCart =>
      "You just tell the user the products (in the sources) in the shopping cart in table format with total price under the table. The header of the table including only Product, Price, Quantity, and Total. If it is empty, tell that it is empty and convince the user to buy something."
    case AddProductToCart =>
      "The user wants to add products into the shopping cart. If done, means the system add completely, don't want to know product name, and ask the user to buy others. If error, beg the user to try again."
    case RemoveProductFromCart =>
      "The user wants to remove products out of the shopping cart. If done, means the system add completely, don't want to know product name, and ask the user to buy others. If error, beg the user to try again."
    case UpdateProductQuantity =>
      "The user wants to update quantity of a product in the shopping cart. If done, means the system add completely, don't want to know product name, and ask the user to buy others. If error, beg the user to try again."
    case PayCart =>
      "The user wants to buy products in the shopping cart. If done, means the payment is complete, will receive all products in a few days, and tell later about this fake payment in bracket. If no products, tell them no products in the cart and convince the user to buy. If error, beg the user to try again."
    case CheckProductsStatus =>
      "The user wants to check the products current status provided in the source. You just explain the details about the products. The date format is 'ddd d mmm yy'. If no products, tell them no products in the cart and convince the user to buy. If error, beg the user to try again."
  }

  // ---------------------------------------------------------------- reply_prompt

  /** The operations that only read the store. */
  predicate ReadOnly(op: Operation) {
    op == SearchProducts || op == ShowCart || op == CheckProductsStatus
  }

  datatype Message = Message(role: string, content: string)

  /** A first-pass request: the conversation behind the shop persona, and the menu. */
  datatype FirstPass = FirstPass(messages: seq<Message>, functions: seq<FunctionSpec>)

  function FirstPassRequest(history: seq<Message>): (r: FirstPass)
    ensures |r.messages| == |history| + 1 && r.messages[1..] == history
    ensures r.messages[0] == Message("system", ShopPersona)
    ensures r.functions == CustomFunctions()
  {
    FirstPass([Message("system", ShopPersona)] + history, CustomFunctions())
  }

  /** The first-pass decision of the model: a plain answer, or a call of a named function. */
  datatype Decision = Content(text: string) | FunctionCall(name: string, arguments: Arguments)

  /** The reply handed to the page: a second-pass request to be streamed, or text. */
  datatype Reply = Streamed(system: string, user: string) | Text(content: string)

  /** The reply, whether it is to be streamed, and the store after the operation. */
  datatype Answer = Answer(reply: Reply, stream: bool, store: Store)

  /** `reply_prompt`: answers the user's `prompt` from the model's first-pass `decision`. */
  function ReplyPrompt(decision: Decision, prompt: string, w: World): (r: Attempt<Answer>)
    requires WellFormedWorld(w)
    ensures decision.Content? ==> r == Returned(Answer(Text(decision.text), false, w.store))
    ensures decision.FunctionCall? && OperationNamed(decision.name).None? ==>
              r == Returned(Answer(Text(Fallback), false, w.store))
    ensures r.Returned? ==> (r.value.stream <==> r.value.reply.Streamed?)
    ensures r.Returned? && r.value.stream ==>
              && decision.FunctionCall?
              && OperationNamed(decision.name).Some?
              && r.value.reply.system == SecondPassSystem(OperationNamed(decision.name).value)
              && prompt + SourcesSeparator <= r.value.reply.user
    ensures r.Raised? ==> decision.FunctionCall? && OperationNamed(decision.name).Some?
    ensures decision.FunctionCall? && OperationNamed(decision.name).Some? ==>
              var op := OperationNamed(decision.name).value;
              match BindCall(op, decision.arguments)
              case Raised(e) => r == Raised(e)
              case Returned(c) =>
                match Execute(c, w)
                case Raised(e) => r == Raised(e)
                case Returned(o) =>
                  r == Returned(Answer(Streamed(SecondPassSystem(op), prompt + SourcesSeparator + o.message), true, o.store))
  {
    match decision
    case Content(text) => Returned(Answer(Text(text), false, w.store))
    case FunctionCall(name, args) =>
      match OperationNamed(name)
      case None => Returned(Answer(Text(Fallback), false, w.store))
      case Some(op) =>
        match BindCall(op, args)
        case Raised(e) => Raised(e)
        case Returned(c) =>
          match Execute(c, w)
          case Raised(e) => Raised(e)
          case Returned(o) =>
            Returned(Answer(Streamed(SecondPassSystem(op), prompt + SourcesSeparator + o.message), true, o.store))
  }

  /** Read-only operations leave the store as it was, whatever the reply. */
  lemma ReadOnlyCallsKeepStore(op: Operation, args: Arguments, prompt: string, w: World)
    requires WellFormedWorld(w) && ReadOnly(op)
    ensures var r := ReplyPrompt(FunctionCall(NameOf(op), args), prompt, w);
            r.Returned? ==> r.value.store == w.store
  {
    NamesSelectTheirOperation(op, NameOf(op));
    match BindCall(op, args)
    case Raised(_) =>
    case Returned(c) =>
      assert KindOf(c) == op;
      assert c.Search? || c.Show? || c.Check?;
  }
}

=== FILE: seqs.dfy ===
/** Generic facts about sequences used by the retriever and the cart store. */
module Seqs {

  /** No element occurs twice. */
  predicate Distinct<T(==)>(s: seq<T>) {
    forall i, j | 0 <= i < j < |s| :: s[i] != s[j]
  }

  /** A sequence with a fresh head is distinct exactly when its tail is. */
  lemma DistinctCons<T>(h: T, t: seq<T>)
    ensures Distinct([h] + t) <==> h !in t && Distinct(t)
  {
    var s := [h] + t;
    if Distinct(s) {
      forall j | 0 <= j < |t| ensures t[j] != h {
        assert s[0] != s[j + 1];
      }
      forall i, j | 0 <= i < j < |t| ensures t[i] != t[j] {
        assert s[i + 1] != s[j + 1];
      }
    }
    if h !in t && Distinct(t) {
      forall i, j | 0 <= i < j < |s| ensures s[i] != s[j] {
        if i == 0 {
          assert s[j] == t[j - 1];
        } else {
          assert s[i] == t[i - 1] && s[j] == t[j - 1];
        }
      }
    }
  }

  /** Two distinct sequences with no common element concatenate to a distinct one. */
  lemma DistinctAppend<T>(a: seq<T>, b: seq<T>)
    requires Distinct(a) && Distinct(b)
    requires forall x :: x in b ==> x !in a
    ensures Distinct(a + b)
  {
    var s := a + b;
    forall i, j | 0 <= i < j < |s| ensures s[i] != s[j] {
      if j < |a| {
        assert s[i] == a[i] && s[j] == a[j];
      } else if i >= |a| {
        assert s[i] == b[i - |a|] && s[j] == b[j - |a|];
      } else {
        assert s[i] == a[i] && s[j] == b[j - |a|];
        assert b[j - |a|] in b && a[i] in a;
      }
    }
  }

  /** The first `n` elements, or all of them when there are fewer (SQL `LIMIT n`). */
  function Prefix<T>(s: seq<T>, n: nat): (r: seq<T>)
    ensures |r| == if |s| <= n then |s| else n
    ensures r <= s
  {
    if |s| <= n then s else s[..n]
  }

  /** A prefix of a distinct sequence is distinct. */
  lemma DistinctPrefix<T>(s: seq<T>, n: nat)
    requires Distinct(s)
    ensures Distinct(Prefix(s, n))
  {
    var r := Prefix(s, n);
    forall i, j | 0 <= i < j < |r| ensures r[i] != r[j] {
      assert r[i] == s[i] && r[j] == s[j];
    }
  }

  /** The elements of `s` that satisfy `keep`, in their original order (SQL `WHERE`). */
  function Filter<T(==,!new)>(s: seq<T>, keep: T -> bool): (r: seq<T>)
    ensures |r| <= |s|
    ensures forall x :: x in r <==> x in s && keep(x)
    ensures Distinct(s) ==> Distinct(r)
    ensures (exists x :: x in s && !keep(x)) ==> |r| < |s|
  {
    if s == [] then []
    else
      var rest := Filter(s[1..], keep);
      assert s == [s[0]] + s[1..];
      DistinctCons(s[0], s[1..]);
      if keep(s[0]) then
        DistinctCons(s[0], rest);
        [s[0]] + rest
      else
        rest
  }

  /** `Filter` keeps every copy of a kept element and no copy of a dropped one. */
  lemma {:induction false} FilterCounts<T(!new)>(s: seq<T>, keep: T -> bool)
    ensures forall x :: multiset(Filter(s, keep))[x] == if keep(x) then multiset(s)[x] else 0
    decreases |s|
  {
    if s != [] {
      var rest := Filter(s[1..], keep);
      FilterCounts(s[1..], keep);
      assert s == [s[0]] + s[1..];
      assert multiset(s) == multiset([s[0]]) + multiset(s[1..]);
      if keep(s[0]) {
        assert Filter(s, keep) == [s[0]] + rest;
        assert multiset([s[0]] + rest) == multiset([s[0]]) + multiset(rest);
      } else {
        assert Filter(s, keep) == rest;
      }
    }
  }

  /** `t` occurs as a contiguous run of `s`. */
  predicate Infix<T(==)>(t: seq<T>, s: seq<T>) {
    exists i | 0 <= i <= |s| :: t <= s[i..]
  }

  /** A head of `h + s` and every run of `s` are runs of `h + s`. */
  lemma InfixOfJoin<T>(h: seq<T>, s: seq<T>)
    ensures Infix(h, h + s)
    ensures forall t | Infix(t, s) :: Infix(t, h + s)
  {
    assert (h + s)[0..] == h + s;
    forall t | Infix(t, s) ensures Infix(t, h + s) {
      var i :| 0 <= i <= |s| && t <= s[i..];
      assert (h + s)[|h| + i..] == s[i..];
    }
  }

  /** A run of `s` stays a run when something is appended to `s`. */
  lemma InfixOfLonger<T>(s: seq<T>, e: seq<T>)
    ensures forall t | Infix(t, s) :: Infix(t, s + e)
  {
    forall t | Infix(t, s) ensures Infix(t, s + e) {
      var i :| 0 <= i <= |s| && t <= s[i..];
      assert (s + e)[i..] == s[i..] + e;
    }
  }

  /** The parts `f(x)` of the elements of `xs`, one after another. */
  function ConcatMap<A, T>(xs: seq<A>, f: A -> seq<T>): seq<T>
  {
    if xs == [] then []
    else
      f(xs[0]) + ConcatMap(xs[1..], f)
  }

  /** Each element's part sits right after the parts of the elements before it and right
      before those of the elements after it: the result holds those parts and nothing else. */
  lemma ConcatMapAround<A, T>(xs: seq<A>, f: A -> seq<T>)
    ensures forall i | 0 <= i < |xs| :: ConcatMap(xs, f) == ConcatMap(xs[..i], f) + f(xs[i]) + ConcatMap(xs[i + 1..], f)
  {
    forall i | 0 <= i < |xs| ensures ConcatMap(xs, f) == ConcatMap(xs[..i], f) + f(xs[i]) + ConcatMap(xs[i + 1..], f) {
      ConcatMapAt(xs, f, i);
    }
  }

  lemma {:induction false} ConcatMapAt<A, T>(xs: seq<A>, f: A -> seq<T>, i: nat)
    requires i < |xs|
    ensures ConcatMap(xs, f) == ConcatMap(xs[..i], f) + f(xs[i]) + ConcatMap(xs[i + 1..], f)
    decreases i
  {
    if i == 0 {
      assert xs[..0] == [];
    } else {
      var t := xs[1..];
      ConcatMapAt(t, f, i - 1);
      assert t[..i - 1] == xs[1..i] && t[i - 1] == xs[i] && t[i..] == xs[i + 1..];
      var before := ConcatMap(xs[1..i], f);
      assert xs[..i][0] == xs[0] && xs[..i][1..] == xs[1..i];
      assert ConcatMap(xs[..i], f) == f(xs[0]) + before;
      var x, y, z := f(xs[0]), f(xs[i]), ConcatMap(xs[i + 1..], f);
      Regroup(x, before, y);
      Regroup(x, before + y, z);
    }
  }

  /** Every element's part occurs in the result. */
  lemma ConcatMapContains<A, T>(xs: seq<A>, f: A -> seq<T>)
    ensures forall x | x in xs :: Infix(f(x), ConcatMap(xs, f))
  {
    forall i | 0 <= i < |xs| ensures Infix(f(xs[i]), ConcatMap(xs, f)) {
      ConcatMapAt(xs, f, i);
      InfixOfMiddle(ConcatMap(xs[..i], f), f(xs[i]), ConcatMap(xs[i + 1..], f));
    }
  }

  /** The middle part of a three-way join is a run of it. */
  lemma InfixOfMiddle<T>(a: seq<T>, b: seq<T>, c: seq<T>)
    ensures Infix(b, a + b + c)
  {
    assert (a + b + c)[|a|..] == b + c;
  }

  /** Regrouping one concatenation to the right. */
  lemma Regroup<T>(x: seq<T>, y: seq<T>, z: seq<T>)
    ensures x + y + z == x + (y + z)
  {
  }
}

=== FILE: text.dfy ===
/** Decimal rendering of integers and of two-decimal money amounts, as Python's
    `str` (and an f-string) writes an `int` and a fixed-point `Decimal`. */
module Text {
  import opened Wrappers

  predicate IsDigit(c: char) {
    '0' <= c <= '9'
  }

  predicate AllDigits(s: string) {
    forall i | 0 <= i < |s| :: IsDigit(s[i])
  }

  function DigitChar(d: nat): (c: char)
    requires d < 10
    ensures IsDigit(c)
  {
    (48 + d) as char
  }

  function DigitValue(c: char): (d: nat)
    requires IsDigit(c)
    ensures d < 10
  {
    c as int - 48
  }

  /** Decimal digits of `n`, most significant first, without leading zeros. */
  function NatToString(n: nat): (s: string)
    ensures |s| >= 1 && AllDigits(s)
    ensures s[0] == '0' ==> n == 0
    decreases n
  {
    if n < 10 then [DigitChar(n)] else NatToString(n / 10) + [DigitChar(n % 10)]
  }

  /** The number a string of decimal digits denotes. */
  function ParseDigits(s: string): nat
    requires AllDigits(s)
    decreases |s|
  {
    if s == [] then 0 else ParseDigits(s[..|s| - 1]) * 10 + DigitValue(s[|s| - 1])
  }

  /** Reading back the digits of `n` gives `n`: the rendering loses nothing. */
  lemma {:induction false} NatToStringRoundTrip(n: nat)
    ensures ParseDigits(NatToString(n)) == n
    decreases n
  {
    var s := NatToString(n);
    if n >= 10 {
      NatToStringRoundTrip(n / 10);
      assert s[..|s| - 1] == NatToString(n / 10);
    }
  }

  /** An `int` as `str` renders it: a minus sign for negative values, then the digits. */
  function IntToString(i: int): (s: string)
    ensures |s| >= 1
    ensures i < 0 ==> s[0] == '-' && AllDigits(s[1..]) && ParseDigits(s[1..]) == -i
    ensures i >= 0 ==> AllDigits(s) && ParseDigits(s) == i
    ensures i >= 0 ==> (s[0] == '0' ==> i == 0)
    ensures i < 0 ==> |s| >= 2 && s[1] != '0'
  {
    if i < 0 then
      NatToStringRoundTrip(-i);
      assert ("-" + NatToString(-i))[1..] == NatToString(-i);
      "-" + NatToString(-i)
    else
      NatToStringRoundTrip(i);
      NatToString(i)
  }

  /** An unsigned two-decimal rendering: a run of digits, a point and two digits, where
      the whole part starts with '0' only when it is "0". */
  predicate UnsignedForm(u: string) {
    && |u| >= 4 && u[|u| - 3] == '.'
    && AllDigits(u[..|u| - 3]) && AllDigits(u[|u| - 2..])
    && (u[0] == '0' ==> |u| == 4)
  }

  /** An amount of whole cents as a two-decimal `Decimal` renders it: `16.19`, `0.05`, `-3.40`. */
  function CentsText(cents: int): (s: string)
    ensures |s| >= 4 && (s[0] == '-' <==> cents < 0)
    ensures UnsignedForm(if cents < 0 then s[1..] else s)
  {
    var a := if cents < 0 then -cents else cents;
    var body := NatToString(a / 100) + "." + [DigitChar(a % 100 / 10), DigitChar(a % 10)];
    UnsignedShape(a);
    assert ("-" + body)[1..] == body;
    assert ("" + body) == body;
    (if cents < 0 then "-" else "") + body
  }

  /** The unsigned part of a rendering has the two-decimal form. */
  lemma UnsignedShape(a: nat)
    ensures var body := NatToString(a / 100) + "." + [DigitChar(a % 100 / 10), DigitChar(a % 10)];
            UnsignedForm(body) && IsDigit(body[0])
  {
    var whole := NatToString(a / 100);
    var frac := [DigitChar(a % 100 / 10), DigitChar(a % 10)];
    var body := whole + "." + frac;
    var n := |body|;
    assert body[..n - 3] == whole;
    assert body[n - 2..] == frac;
    assert body[0] == whole[0];
  }

  /** The number of cents a two-decimal rendering denotes, if it is one. */
  function ReadCents(s: string): Option<int> {
    if |s| > 0 && s[0] == '-' then
      match ReadUnsigned(s[1..])
      case None => None
      case Some(v) => Some(-v)
    else ReadUnsigned(s)
  }

  /** The number of cents an unsigned two-decimal rendering denotes, if it is one. */
  function ReadUnsigned(body: string): Option<int> {
    if |body| < 4 || body[|body| - 3] != '.' then None
    else if !AllDigits(body[..|body| - 3]) || !AllDigits(body[|body| - 2..]) then None
    else Some(ParseDigits(body[..|body| - 3]) * 100 + ParseDigits(body[|body| - 2..]))
  }

  /** Two rendered digits read back as the two-digit number they make. */
  lemma TwoDigits(x: nat, y: nat)
    requires x < 10 && y < 10
    ensures AllDigits([DigitChar(x), DigitChar(y)])
    ensures ParseDigits([DigitChar(x), DigitChar(y)]) == 10 * x + y
  {
    var frac := [DigitChar(x), DigitChar(y)];
    assert DigitValue(DigitChar(x)) == x && DigitValue(DigitChar(y)) == y;
    assert frac[..1] == [DigitChar(x)];
    assert [DigitChar(x)][..0] == [];
    assert ParseDigits([DigitChar(x)]) == ParseDigits([]) * 10 + x;
    assert ParseDigits(frac) == ParseDigits(frac[..1]) * 10 + y;
  }

  /** How `ReadUnsigned` takes apart a digit run, a point and two digits. */
  lemma ReadBody(whole: string, frac: string)
    requires |whole| >= 1 && AllDigits(whole) && |frac| == 2 && AllDigits(frac)
    ensures ReadUnsigned(whole + "." + frac) == Some(ParseDigits(whole) * 100 + ParseDigits(frac))
  {
    var body := whole + "." + frac;
    var n := |body|;
    assert n == |whole| + 3 && body[n - 3] == '.';
    var w, f := body[..n - 3], body[n - 2..];
    assert w == whole by {
      forall i | 0 <= i < |whole| ensures w[i] == whole[i] {
        assert w[i] == body[i];
      }
    }
    assert f == frac by {
      assert f[0] == body[n - 2] && f[1] == body[n - 1];
    }
    ReadSplit(body);
  }

  /** `ReadUnsigned` on a body whose two digit runs are well formed. */
  lemma ReadSplit(body: string)
    requires |body| >= 4 && body[|body| - 3] == '.'
    requires AllDigits(body[..|body| - 3]) && AllDigits(body[|body| - 2..])
    ensures ReadUnsigned(body) == Some(ParseDigits(body[..|body| - 3]) * 100 + ParseDigits(body[|body| - 2..]))
  {
  }

  /** How `ReadCents` treats a leading minus sign in front of an unsigned rendering. */
  lemma ReadSign(negative: bool, body: string, v: int)
    requires |body| > 0 && IsDigit(body[0]) && ReadUnsigned(body) == Some(v)
    ensures ReadCents((if negative then "-" else "") + body) == Some(if negative then -v else v)
  {
    if negative {
      assert ("-" + body)[1..] == body;
    } else {
      assert "" + body == body;
    }
  }

  /** An amount of cents is its whole part, its tens of cents and its cents. */
  lemma SplitCents(a: nat)
    ensures a == 100 * (a / 100) + 10 * (a % 100 / 10) + a % 10
  {
    var q, rem := a / 100, a % 100;
    assert a == 100 * q + rem && 0 <= rem < 100;
    var t, u := rem / 10, rem % 10;
    assert rem == 10 * t + u && 0 <= u < 10;
    assert a == 10 * (10 * q + t) + u;
    assert a % 10 == u;
  }

  /** The rendering of an amount, taken apart into sign, whole part and two digits. */
  lemma CentsTextParts(cents: int, a: nat)
    requires a == if cents < 0 then -cents else cents
    ensures CentsText(cents) == (if cents < 0 then "-" else "")
                                + (NatToString(a / 100) + "." + [DigitChar(a % 100 / 10), DigitChar(a % 10)])
  {
  }

  /** The unsigned part of a rendering reads back as the amount it renders. */
  lemma UnsignedTextRoundTrip(a: nat)
    ensures var body := NatToString(a / 100) + "." + [DigitChar(a % 100 / 10), DigitChar(a % 10)];
            |body| > 0 && IsDigit(body[0]) && ReadUnsigned(body) == Some(a)
  {
    var q, t, u := a / 100, a % 100 / 10, a % 10;
    var whole := NatToString(q);
    var frac := [DigitChar(t), DigitChar(u)];
    NatToStringRoundTrip(q);
    TwoDigits(t, u);
    ReadBody(whole, frac);
    SplitCents(a);
    assert (whole + "." + frac)[0] == whole[0];
  }

  /** Reading back a rendered amount gives the amount: the rendering is exact. */
  lemma CentsTextRoundTrip(cents: int)
    ensures ReadCents(CentsText(cents)) == Some(cents)
  {
    var a: nat := if cents < 0 then -cents else cents;
    var body := NatToString(a / 100) + "." + [DigitChar(a % 100 / 10), DigitChar(a % 10)];
    UnsignedTextRoundTrip(a);
    ReadSign(cents < 0, body, a);
    CentsTextParts(cents, a);
  }

  /** A rendering found at position `k` of a longer text reads back there as well. */
  lemma CentsTextReadAt(s: string, k: nat, cents: int)
    requires k + |CentsText(cents)| <= |s| && s[k..k + |CentsText(cents)|] == CentsText(cents)
    ensures ReadCents(s[k..k + |CentsText(cents)|]) == Some(cents)
  {
    CentsTextRoundTrip(cents);
  }
}

=== FILE: wrappers.dfy ===
/** Small failure-carrying datatypes shared by the whole model. */
module Wrappers {

  /** A value that may be absent (a SQL NULL, a row that `fetchone` did not find). */
  datatype Option<+T> = None | Some(value: T) {

    /** The carried value, or `default` when there is none. */
    function GetOr(default: T): T {
      match this
      case Some(v) => v
      case None => default
    }
  }

  /** The outcome of a Python call: it returns a value, or it raises an
      exception that nothing on the way up catches. */
  datatype Attempt<+T> = Returned(value: T) | Raised(reason: string)
}
